=== FILE: README.md ===
# RBAC backend of rbac-app, modelled in Dafny

This project models the access-control core of the NestJS/TypeORM backend of
rbac-app. The backend keeps roles, users, projects and tasks in Postgres.
Every project, task and user route is guarded twice:

- JWT authentication puts the principal on the request;
- `PermissionsGuard` compares the role's permission map with the route's
  `@RequirePermissions` metadata.

The model is written as pure functions over immutable tables. It covers:

- `permissions.dfy`: the permission guard (`getAllAndOverride` lookup, fail-closed checks, AND over pairs).
- `registry.dfy`: the route registry of the four controllers, their guard chains, and the guard chain as a function of a bearer token.
- `schema.dfy` and `tables.dfy`:
  - the entities as rows of serial-keyed tables;
  - the integrity constraints of the entity files (unique email, unique role name, foreign keys, `ON DELETE CASCADE` for tasks), collected in the invariant `Schema.Consistent`, which every operation keeps. The invariant also keeps every user bound to a stored role, although `users.roleId` is a nullable column: every path the model covers sets a role;
  - the password hook of the User entity.
- `role_seed.dfy` and `user_seed.dfy`: the role and user seed scripts.
- `auth_service.dfy`: the local strategy, `AuthService.login` and `AuthService.register`.
- `user_service.dfy`, `project_service.dfy` and `task_service.dfy`: the three CRUD services.
- `controllers.dfy`: the handler bodies, unary `+` on the `projectId` query, and the complete request path (guards, then handler).
- `scenarios.dfy`: the seeded role matrix, a fresh installation (seed, register, log in), and calls made by principals holding the seeded roles.

Cryptography is a parameter:

- bcrypt is a `Schema.Hasher` (a `hash` and a `compare` function). The only assumption about it is `Schema.Sound`: every digest starts with `$2b$`, and a plaintext compares equal to its own digest.
- Token signing is an `AuthService.Signer`.
- Token decoding is a `Registry.Decoder`. It is whatever the JWT strategy does to turn a bearer token into `request.user`. That strategy is not part of this model, and the decoder is unconstrained. What it returns has the shape the guard and the services read: a numeric `id`, an `email`, and an optional role with a `name` and an optional permission map (`Permissions.Principal`).

Errors are the HTTP outcomes Nest produces: `Unauthorized` (401), `Forbidden` (403), `NotFound` (404), `Conflict` (409) and `Internal` (500). `Internal` covers a plain `Error`, a `TypeError` and a database constraint violation.

Behaviours of the code worth knowing:

- `register` with an email already in use throws a plain `Error`, so the answer is a 500. `UserService.Create` throws `ConflictException` (409) for the same situation.
- `register` does not check a supplied `roleId`. An unknown key fails on the foreign key with a 500. A known key is taken as given, so anyone can register with any role, including admin (`Scenarios.SelfRegisteredAdmin`).
- The default role is simply key 3. On a freshly seeded database key 3 is viewer, only because viewer is the third role the seed inserts (`RoleSeed.FreshSeedKeys`).
- Deleting a user who owns projects fails on the `projects.createdById` foreign key (500). The user service has no such error path of its own.
- `GET /tasks?projectId=<n>` with a number outside the range of the `integer` key column is refused by Postgres with a 500 (`Controllers.ListTasksOutOfRange`).
- The password hook leaves a password that already starts with `$2b$` as it is. bcrypt's `compare` does not accept such a stored value against itself, so a user registered with such a password cannot log in (`AuthService.RegisterThenLogin` is stated for other passwords).
- passport-local answers a plain 401 for an empty email or password before the strategy's own "Invalid credentials" check runs.

## Model

| member | source | states |
|---|---|---|
| Permissions.Every | backend/src/guards/permissions.guard.ts:28-33 | true exactly when every required pair names a resource present in the map whose action list holds the action; an empty list is satisfied |
| Permissions.Lookup | backend/src/guards/permissions.guard.ts:13-15 | `getAllAndOverride`: a requirement is found exactly when the handler or the class declares one, and the handler's wins |
| Permissions.CanActivate | backend/src/guards/permissions.guard.ts:12-34 | no requirement at handler or class level allows; otherwise allows exactly when user, role and permission map are all present and every pair is granted |
| Permissions.HandlerOverridesClass | backend/src/guards/permissions.guard.ts:13-15 | handler metadata replaces class metadata: the class-level list has no influence once the handler declares one |
| Permissions.ClassAppliesWithoutHandler | backend/src/guards/permissions.guard.ts:13-15 | without handler metadata the class-level list decides as if declared on the handler |
| Permissions.NoRequirementAllows | backend/src/guards/permissions.guard.ts:17-19 | with no requirement anywhere the guard allows whoever is on the request, even nobody |
| Permissions.MissingPermissionsDeny | backend/src/guards/permissions.guard.ts:21-26 | with a requirement present, a missing user, role or permission map denies |
| Permissions.EmptyRequirementNeedsOnlyPermissions | backend/src/guards/permissions.guard.ts:17-28 | a present but empty requirement list admits exactly the principals that carry a permission map |
| Permissions.MoreGrantsNeverDeny | backend/src/guards/permissions.guard.ts:28-33 | monotone in grants: a principal whose map extends another's is allowed wherever the other is |
| Permissions.MoreRequirementsNeverAllow | backend/src/guards/permissions.guard.ts:28 | appending pairs to a requirement never turns a denial into an allow |
| Permissions.RequirementOrderIrrelevant | backend/src/guards/permissions.guard.ts:28-33 | two requirement lists with the same pairs get the same decision |
| Permissions.AndSemanticsExample | backend/src/guards/permissions.guard.ts:28-33 | two pairs are AND-ed: holding one of them denies, holding both allows |
| Permissions.OverrideExample | backend/src/guards/permissions.guard.ts:13-15 | a class requirement the principal meets does not help when the handler's own requirement is unmet |
| Registry.RouteRequirement | backend/src/controllers/project.controller.ts:24-56 | each of the fifteen CRUD routes requires exactly one pair: its controller's resource and its verb's action (POST create, GET read, PATCH update, DELETE delete) |
| Registry.RegistryKeysAreCrud | backend/src/controllers/user.controller.ts:23-51 | no route outside the five CRUD routes of projects, tasks and users carries handler metadata |
| Registry.RegistryShape | backend/src/controllers/task.controller.ts:19-53 | a route has metadata exactly when it is a CRUD route; then its guard chain is JWT then permissions and there is no class-level requirement |
| Registry.AuthRoutesGuards | backend/src/controllers/auth.controller.ts:13-28 | register has no guard, login only the local strategy, profile only JWT; none of the three declares a permission requirement |
| Registry.Admit | backend/src/controllers/project.controller.ts:19-20 | missing or undecodable token gives 401; a route with the permission guard gives 403 when the guard denies; otherwise the decoded principal |
| Registry.ProtectedRouteDecision | backend/src/controllers/user.controller.ts:18-51 | on a registered route a request passes exactly when the token decodes to a principal whose permission map grants the route's single pair |
| Registry.ProfileNeedsOnlyJwt | backend/src/controllers/auth.controller.ts:24-28 | `GET /auth/profile` succeeds exactly when the token decodes, and answers the decoded principal unchanged |
| Schema.HashPassword | backend/src/entities/user.entity.ts:44-50 | the stored value is either the password or its digest; an empty password or one already marked `$2b$` is kept; with a sound hasher a non-empty password ends up marked |
| Schema.ValidatePassword | backend/src/entities/user.entity.ts:52-54 | with a sound hasher a candidate validates against its own digest |
| Schema.RoleIdOrDefault | backend/src/services/user.service.ts:42 | `roleId \|\| 3`: a truthy key is kept, an absent key or 0 becomes 3 |
| Results.IntToString | backend/src/services/user.service.ts:66 | the `${id}` of the messages: non-empty, starting with `-` exactly for negatives; `+` reads it back (`Controllers.ToNumberReadsIntToString`) |
| Schema.HashedPasswordHasMarker | backend/src/entities/user.entity.ts:44-50 | after the hook a non-empty password carries the `$2b$` marker, and an empty one stays empty |
| Schema.HashPasswordIdempotent | backend/src/entities/user.entity.ts:47 | running the hook on its own output changes nothing, so a digest is never hashed again |
| Schema.ValidatesAfterHook | backend/src/entities/user.entity.ts:52-54 | a plaintext saved through the hook validates against the stored value |
| Schema.UserWithEmail | backend/src/strategies/local.strategy.ts:18-21 | finds a user exactly when one with that email exists, and returns its key |
| Schema.RoleNamed | backend/src/database/seed-roles.ts:33-35 | finds a role exactly when one with that name exists, and returns its key |
| Schema.RoleById | backend/src/entities/user.entity.ts:32-36 | the `role` relation resolves exactly when the key is stored, carrying that row's name and permissions |
| Schema.InsertUser | backend/src/entities/user.entity.ts:21-36 | saving a new user succeeds exactly when its role exists and its email is unused; the row is stored hooked under a fresh key, nothing else changes, and the invariant holds |
| Schema.ReplaceUser | backend/src/entities/user.entity.ts:21-36 | saving an existing user succeeds exactly when its role exists and no other user has its email; only that row changes, hooked |
| Tables.Insert | backend/src/entities/project.entity.ts:16-17 | a saved row gets the next serial key, which no row has ever held, and the sequence moves past it; every other row is kept |
| Tables.FindFirst | backend/src/database/seed-users.ts:35-37 | the first matching row at or after a key, or none exactly when no row from there matches |
| Tables.Find | backend/src/database/seed-roles.ts:33-35 | some row matches exactly when a key is returned; that row matches and no smaller key does |
| RoleSeed.SeedFrom | backend/src/database/seed-roles.ts:32-39 | keeps every existing role as is, leaves every fixture name present, adds rows only from the fixture, and keeps role names unique |
| RoleSeed.SeedRolesInto | backend/src/database/seed-roles.ts:4-40 | after seeding, admin, editor and viewer exist, every existing role is untouched, the other tables are unchanged and the invariant holds |
| RoleSeed.SeedFromNoop | backend/src/database/seed-roles.ts:32-39 | when every fixture name is already taken the loop inserts nothing |
| RoleSeed.SeedRolesIdempotent | backend/src/database/seed-roles.ts:32-39 | seeding twice gives the same database as seeding once |
| RoleSeed.FreshSeedKeys | backend/src/database/seed-roles.ts:7-39 | on an empty role table the fixture lands on keys 1, 2, 3 in the order admin, editor, viewer, so the default key 3 is viewer |
| RoleSeed.FixtureGrants | backend/src/database/seed-roles.ts:7-30 | per resource and CRUD action: admin holds all four on users, projects and tasks; editor all on tasks and all but delete on projects; viewer only reads projects and tasks |
| UserSeed.InsertMissing | backend/src/database/seed-users.ts:35-42 | keeps every existing user, leaves every seed email taken, stores new rows only as hooked seed rows, changes no other table, and keeps the invariant |
| UserSeed.SeedUsersInto | backend/src/database/seed-users.ts:5-42 | fails with the "Required roles not found" error exactly when admin, editor or viewer is missing; otherwise all three seed emails are taken and existing users are untouched |
| UserSeed.InsertMissingNoop | backend/src/database/seed-users.ts:35-42 | when every pending email is taken the loop inserts nothing |
| UserSeed.SeedUsersIdempotent | backend/src/database/seed-users.ts:35-42 | seeding users twice gives the same database as seeding once |
| UserSeed.InsertMissingStoresRow | backend/src/database/seed-users.ts:35-42 | among rows with distinct emails, a row whose email was free is stored exactly as the hook makes it, under a new key |
| UserSeed.SeedUserBoundToRole | backend/src/database/seed-users.ts:9-33 | each seed user whose email was free is stored with the key of the role of its name and the hooked fixture password |
| UserService.Create | backend/src/services/user.service.ts:22-48 | a taken email gives Conflict; a truthy unknown role key gives NotFound; otherwise it succeeds exactly when `roleId` or 3 is a stored role (else the foreign key fails with a 500), storing the row, under the next serial key, with a hooked password and answering key, email and role key but no password |
| UserService.FindAll | backend/src/services/user.service.ts:50-56 | one entry per stored user with its key, email and resolved role, and no password |
| UserService.FindOne | backend/src/services/user.service.ts:58-70 | the entry `findAll` lists under that key, or NotFound "User #id not found" exactly when the key is unknown |
| UserService.Merge | backend/src/services/user.service.ts:97 | `Object.assign`: each of email, password and role key present in the body overwrites, each absent one stays |
| UserService.Update | backend/src/services/user.service.ts:72-101 | unknown user gives NotFound; Conflict exactly when a new, different, taken email is given; then a truthy unknown role key gives NotFound; otherwise it succeeds exactly when the merged row keeps the foreign key and the unique email (else a 500); fields absent from the body stay; the row is saved hooked and answered without password, and the key sequence is untouched |
| UserService.OwnEmailNeverConflicts | backend/src/services/user.service.ts:79-86 | re-submitting one's own email, or none, never gives Conflict |
| UserService.UpdateKeepsDigest | backend/src/services/user.service.ts:97-98 | an update without a password leaves a stored digest exactly as it was |
| UserService.Remove | backend/src/services/user.service.ts:103-107 | unknown key gives NotFound; a user who owns projects cannot be removed; otherwise exactly that user is gone, the key sequence is untouched, and the message names its key |
| ProjectService.Create | backend/src/services/project.service.ts:20-27 | the new project is owned by the acting principal; it is saved, under the next serial key, exactly when that principal is a stored user |
| ProjectService.FindAll | backend/src/services/project.service.ts:29-40 | every project, for any principal with a role; a principal without a role makes the role test throw |
| ProjectService.FindAllIgnoresRole | backend/src/services/project.service.ts:35-39 | a viewer and any other role get the same list |
| ProjectService.FindOne | backend/src/services/project.service.ts:42-53 | the stored project, or NotFound "Project #id not found" exactly when the key is unknown |
| ProjectService.Merge | backend/src/services/project.service.ts:57 | `Object.assign`: supplied name and description overwrite, absent ones stay, the owner never changes |
| ProjectService.Update | backend/src/services/project.service.ts:55-59 | unknown key gives NotFound; otherwise only the supplied fields change, the owner never does, only that row is rewritten, and the key sequence is untouched |
| ProjectService.Cascade | backend/src/entities/task.entity.ts:25-26 | the tasks left are exactly those of other projects, unchanged |
| ProjectService.Remove | backend/src/services/project.service.ts:61-64 | unknown key gives NotFound; otherwise that project is gone, its tasks go with it, and all other tasks stay unchanged, with the task sequence untouched |
| TaskService.Create | backend/src/services/task.service.ts:18-31 | NotFound "Project #n not found" exactly when the project is unknown; otherwise the task is stored with the body's fields under the next serial key, `completed` defaulting to false |
| TaskService.FindAll | backend/src/services/task.service.ts:33-43 | for a truthy project key within the `integer` range, exactly that project's tasks; outside it, a 500; for 0, NaN or none, every task |
| TaskService.FindOne | backend/src/services/task.service.ts:45-56 | the stored task, or NotFound "Task #id not found" exactly when the key is unknown |
| TaskService.Merge | backend/src/services/task.service.ts:60 | `Object.assign`: supplied title and completed overwrite, absent ones stay, the project never changes |
| TaskService.Update | backend/src/services/task.service.ts:58-62 | unknown key gives NotFound; otherwise only title and completed may change, never the project, only that row is rewritten, and the key sequence is untouched |
| TaskService.Remove | backend/src/services/task.service.ts:64-67 | unknown key gives NotFound; otherwise exactly that task is gone and the key sequence is untouched |
| AuthService.ValidateCredentials | backend/src/strategies/local.strategy.ts:17-33 | succeeds exactly when a user with that email exists and the password validates, returning that user with its role; every failure is 401 "Invalid credentials" |
| AuthService.FailuresIndistinguishable | backend/src/strategies/local.strategy.ts:23-30 | an unknown email and a wrong password produce the identical error |
| AuthService.Login | backend/src/services/auth.service.ts:16-32 | the token is the signature of (key, email, role name, role permissions); the answer holds key, email and role, no password; a user without a role throws |
| AuthService.TokenDependsOnlyOnSnapshot | backend/src/services/auth.service.ts:17-25 | two users agreeing on key, email and role get the same answer, whatever their passwords |
| AuthService.RoleEditNotRetroactive | backend/src/services/auth.service.ts:21 | after a role's permissions are edited, a new login carries the new map while the payload taken before carries the old one |
| AuthService.Register | backend/src/services/auth.service.ts:34-55 | a taken email fails with a 500; otherwise the row is saved under the next serial key with `roleId` or 3 and succeeds exactly when that role exists; the answer is `login` of the reloaded row |
| AuthService.RegisterThenLogin | backend/src/services/auth.service.ts:48-54 | right after registering, logging in with the same email and password gives exactly the registration's answer |
| Controllers.ToNumber | backend/src/controllers/task.controller.ts:33 | an integer exactly for digit strings with at most one leading sign, NaN otherwise; the empty string gives 0; `+` gives the unsigned reading and `-` its negation |
| Controllers.ToNumberIgnoresLeadingZero | backend/src/controllers/task.controller.ts:33 | a leading zero does not change the number a digit string denotes |
| Controllers.IntToStringInvertsToNumber | backend/src/controllers/task.controller.ts:33 | every numeral a template literal could print is read by `+` and printed back unchanged |
| Controllers.ToNumberReadsIntToString | backend/src/controllers/task.controller.ts:33 | unary `+` reads back every safe integer (magnitude at most 2^53 - 1) as a template literal prints it |
| Controllers.ProjectIdQuery | backend/src/controllers/task.controller.ts:31-34 | an absent or empty query means no filter; anything else is converted by unary `+`, and is a number exactly when numeric |
| Controllers.CallRoute | backend/src/controllers/task.controller.ts:24-52 | every CRUD call lands on a registered route guarded by JWT then permissions, whose requirement is exactly the call's own pair |
| Controllers.ProjectHandler | backend/src/controllers/project.controller.ts:24-56 | project handlers pass `req.user` to the service: the creator becomes the owner, listing needs a role, reads change nothing, users and roles never change |
| Controllers.TaskHandler | backend/src/controllers/task.controller.ts:24-52 | task handlers change neither projects, users nor roles; listing succeeds exactly when the filter is not refused for its range and answers the filtered service list; create succeeds exactly when the project exists and answers the new row under a fresh key; get, update and remove succeed exactly when the task exists and answer the stored, merged or removed row; reads change nothing |
| Controllers.UserHandler | backend/src/controllers/user.controller.ts:23-51 | user handlers change neither roles nor tasks; create answers the new user under a fresh key with its email and the role defaulted; list and get answer the stored users without password, get failing exactly on an unknown key; update answers the saved user; remove deletes exactly that user and answers its message; reads change nothing |
| Controllers.Perform | backend/src/controllers/project.controller.ts:26-56 | every handler keeps the invariant and the role table; reads leave the database unchanged; a created project is owned by the caller |
| Controllers.Handle | backend/src/controllers/task.controller.ts:19-20 | 401 without a decodable token; 403 when the decoded principal's map lacks the call's pair; otherwise the handler runs with the decoded principal |
| Controllers.AdmittedListProjects | backend/src/controllers/project.controller.ts:30-34 | whoever the guards admit to `GET /projects` gets the whole table; the service's role test cannot throw for them |
| Controllers.ListTasksOfProject | backend/src/controllers/task.controller.ts:30-34 | `GET /tasks?projectId=<text>` for any numeric text that `+` reads as a non-zero k within the `integer` range ("7", "007", "+7") lists exactly the tasks of project k |
| Controllers.ListTasksOfKey | backend/src/controllers/task.controller.ts:30-34 | the printed form of every non-zero key within the `integer` range selects exactly the tasks of that project |
| Controllers.ListTasksOfProjectSevenExamples | backend/src/controllers/task.controller.ts:33 | `+` reads "007" and "+7" as 7, so both answer exactly as `projectId=7` does |
| Controllers.ListTasksOutOfRange | backend/src/services/task.service.ts:38-42 | a numeric `projectId` outside the `integer` range is answered with a 500, not a list |
| Controllers.ListTasksUnfiltered | backend/src/controllers/task.controller.ts:30-34 | an absent, empty, zero or non-numeric `projectId` lists every task |
| Controllers.ListTasksFalsyExamples | backend/src/services/task.service.ts:38-40 | `projectId=0` and `projectId=abc` both list every task |
| Controllers.LoginEndpoint | backend/src/controllers/auth.controller.ts:18-22 | an empty email or password gives a plain 401 before the strategy runs; otherwise it succeeds exactly on valid credentials, answering the token signed over that user's key, email and role, and fails with 401 "Invalid credentials" |
| Controllers.RegisterEndpoint | backend/src/controllers/auth.controller.ts:13-16 | unguarded: a taken email gives 500; on success the answer names the requested or default role |
| Controllers.ProfileEndpoint | backend/src/controllers/auth.controller.ts:24-28 | answers the decoded principal exactly when the token decodes, 401 otherwise |
| Scenarios.RoleMatrix | backend/src/database/seed-roles.ts:7-30 | over all fifteen CRUD calls: admin may make every one, editor every task call and project call except delete, viewer only the four project and task reads |
| Scenarios.ViewerCannotCreateProject | backend/src/controllers/project.controller.ts:24-28 | a viewer's `POST /projects` gets 403 whatever the body |
| Scenarios.EditorCannotRemoveProject | backend/src/controllers/project.controller.ts:52-56 | an editor's `DELETE /projects/:id` gets 403 |
| Scenarios.EditorRemovesTask | backend/src/controllers/task.controller.ts:48-52 | an editor's `DELETE /tasks/:id` reaches the service |
| Scenarios.FreshRegistrationIsViewer | backend/src/services/auth.service.ts:43-54 | on a fresh seed, registering without a role gives role 3, viewer, with the viewer's permissions in the token |
| Scenarios.FreshRegistrationThenLogin | backend/src/strategies/local.strategy.ts:17-33 | logging in with the same credentials right after gives a token over the viewer's permissions |
| Scenarios.RegistrationChoosesRole | backend/src/services/auth.service.ts:43-46 | any stored role key in the body is taken unchecked, and answer and token carry that role |
| Scenarios.SelfRegisteredAdmin | backend/src/services/auth.service.ts:43-46 | on a fresh seed, registering with role key 1 makes an admin |
| Scenarios.SeededAdminRow | backend/src/database/seed-users.ts:17-42 | on an empty database the seed stores the admin under role key 1 with the hooked fixture password |
| Scenarios.AdminLogsIn | backend/src/strategies/local.strategy.ts:17-33 | a stored admin row with the digest of "admin123" logs in with that password, and the token carries the admin permissions |
| Scenarios.SeededAdminLogsIn | backend/src/database/seed-users.ts:17-42 | after seeding an empty database, admin@test.com logs in with admin123 and gets a token over the admin permissions |

## Left out

- Timestamps (`createdAt`, `updatedAt`) and the eager relation objects in answers (`project.createdBy`, `project.tasks`, `task.project`): answers carry the row and its key only.
- The stale `role` relation that `Object.assign` leaves on a user loaded by `update`: the model saves the new `roleId` as given.
- class-validator decorators on the DTOs and entities (email format, non-empty, minimum length 6, maximum lengths): it is not visible whether a validation pipe runs.
- The `@Exclude` serialization of the password: answers are modelled as records without a password field.
- Salting, cost factor and timing of bcrypt, and JWT expiry and issued-at claims: they are hidden behind the `Hasher`, `Signer` and `Decoder` parameters.
- The JWT strategy and `jwt-auth.guard.ts` are not part of this model. How token claims become `request.user` is the abstract `Registry.Decoder`.
- `update-project.dto.ts` and `update-user.dto.ts` are not part of this model. Their shapes are taken as every field of the create DTO, optional.
- Schema.InsertUser: a save the database refuses does not use up a key here, while a failed INSERT does advance the Postgres `serial` sequence. After a refused registration or user creation, the model hands out smaller keys than the database (and a token's `sub` differs). The same holds for ProjectService.Create.
- UserService.Update: a JSON `null` in the body is not modelled. `users.roleId` is nullable, so `roleId: null` would store NULL, and a later login would throw on the missing role.
- Keys are unbounded integers. The `integer` (int4) range of the key columns is modelled only for the `projectId` filter of `GET /tasks`. A serial running out, or a path parameter or body key beyond it (which Postgres refuses with a 500), is answered by the model as by any unknown key.
- Controllers.ToNumber: only optional sign plus decimal digits is read. Digit strings are read exactly, whereas JavaScript rounds beyond 2^53. That rounding never changes an answer, because such values lie outside the `integer` range and are refused either way. Whitespace, fractions, exponents and hexadecimal forms are read as NaN rather than as JavaScript would.
- Path parameters `:id` are modelled as already-numeric keys. Unary `+` of a non-numeric path segment is not modelled.
- Fields outside the DTO that `Object.assign` would also copy.
- TypeORM `findOne` with an undefined `where` value.
- The order of rows in list answers: lists are modelled as maps keyed by primary key.
- async/await and concurrent requests: every operation is one atomic step.
- The frontend.

=== FILE: auth_service.dfy ===
/** Local authentication and token issuance:
    `LocalStrategy.validate` (backend/src/strategies/local.strategy.ts) and
    `AuthService.login` / `AuthService.register`
    (backend/src/services/auth.service.ts). Signing is a parameter: the
    model knows of a token only that it is `sign` of the payload. */
module AuthService {
  import opened Results
  import opened Tables
  import opened Permissions
  import opened Schema

  /** The JWT claims `login` signs. `permissions` is a copy of the role's
      map taken at login time. */
  datatype Payload = Payload(sub: int, email: string, role: string, permissions: PermissionMap)

  /** `jwtService.sign` with its secret and expiry settings. */
  type Signer = Payload -> string

  /** A user row loaded with its `role` relation. */
  datatype LoadedUser = LoadedUser(id: int, email: string, password: string, role: Option<LoadedRole>)

  /** The `user` part of a login answer: key, email and role, no password. */
  datatype SessionUser = SessionUser(id: int, email: string, role: LoadedRole)

  datatype LoginResponse = LoginResponse(accessToken: string, user: SessionUser)

  const InvalidCredentials: string := "Invalid credentials"
  const UserExists: string := "User already exists"
  /** What `user.role.name` throws when the relation came back empty. */
  const RoleMissing: string := "Cannot read properties of null (reading 'name')"

  function LoadUser(db: Db, id: int): (u: LoadedUser)
    requires id in db.users.rows
    ensures u.id == id && u.email == db.users.rows[id].email && u.password == db.users.rows[id].password
    ensures u.role == RoleById(db.roles, db.users.rows[id].roleId)
  {
    var row := db.users.rows[id];
    LoadedUser(id, row.email, row.password, RoleById(db.roles, row.roleId))
  }

  /** `validate(email, password)` of the local strategy. Both failures
      throw the same UnauthorizedException. */
  function ValidateCredentials(db: Db, h: Hasher, email: string, password: string): (r: Result<LoadedUser>)
    requires Consistent(db)
    ensures r.Err? ==> r.error == Unauthorized(InvalidCredentials)
    ensures r.Ok? <==> exists id :: id in db.users.rows && db.users.rows[id].email == email
                                   && ValidatePassword(h, db.users.rows[id].password, password)
    ensures r.Ok? ==> r.value.id in db.users.rows && db.users.rows[r.value.id].email == email
                      && r.value == LoadUser(db, r.value.id)
  {
    match UserWithEmail(db.users, email)
    case None => Err(Unauthorized(InvalidCredentials))
    case Some(id) =>
      var user := LoadUser(db, id);
      if !ValidatePassword(h, user.password, password) then Err(Unauthorized(InvalidCredentials))
      else Ok(user)
  }

  /** An unknown email and a wrong password are indistinguishable to the
      caller. */
  lemma FailuresIndistinguishable(db: Db, h: Hasher, unknown: string, known: string,
                                  password1: string, password2: string)
    requires Consistent(db)
    requires !EmailTaken(db.users, unknown)
    requires ValidateCredentials(db, h, known, password2).Err?
    ensures ValidateCredentials(db, h, unknown, password1) == ValidateCredentials(db, h, known, password2)
  {
  }

  /** The claims of `login(user)`: a snapshot of the role at this moment. */
  function PayloadOf(u: LoadedUser): Payload
    requires u.role.Some?
  {
    Payload(u.id, u.email, u.role.value.name, u.role.value.permissions)
  }

  /** `login(user)` */
  function Login(sign: Signer, u: LoadedUser): (r: Result<LoginResponse>)
    ensures r.Ok? <==> u.role.Some?
    ensures r.Err? ==> r.error == Internal(RoleMissing)
    ensures r.Ok? ==>
      && r.value.accessToken == sign(Payload(u.id, u.email, u.role.value.name, u.role.value.permissions))
      && r.value.user == SessionUser(u.id, u.email, u.role.value)
  {
    if u.role.None? then Err(Internal(RoleMissing))
    else Ok(LoginResponse(sign(PayloadOf(u)), SessionUser(u.id, u.email, u.role.value)))
  }

  /** The token is a function of the login-time payload only: two logins
      whose users agree on key, email and role get the same token, whatever
      their stored passwords, and whatever happened to the tables since. */
  lemma TokenDependsOnlyOnSnapshot(sign: Signer, u1: LoadedUser, u2: LoadedUser)
    requires u1.id == u2.id && u1.email == u2.email && u1.role == u2.role
    ensures Login(sign, u1) == Login(sign, u2)
  {
  }

  /** Role edits are not retroactive: after the role's permissions change,
      a fresh login carries the new map, and a token issued before carries
      the old one. */
  lemma RoleEditNotRetroactive(db: Db, id: int, newPermissions: PermissionMap)
    requires Consistent(db) && id in db.users.rows
    ensures var roleId := db.users.rows[id].roleId;
            var edited := db.(roles := db.roles.(rows := db.roles.rows[roleId := db.roles.rows[roleId].(permissions := newPermissions)]));
            && PayloadOf(LoadUser(db, id)).permissions == db.roles.rows[roleId].permissions
            && PayloadOf(LoadUser(edited, id)).permissions == newPermissions
  {
  }

  /** `register(createUserDto)`: a taken email throws a plain Error; the row
      is saved with `roleId || 3` without checking that the role exists
      (the foreign key rejects a missing one); the answer is `login` of the
      saved row reloaded with its role. */
  function Register(db: Db, h: Hasher, sign: Signer, email: string, password: string,
                    roleId: Option<int>): (r: Result<(Db, LoginResponse)>)
    requires Consistent(db)
    ensures EmailTaken(db.users, email) ==> r == Err(Internal(UserExists))
    ensures !EmailTaken(db.users, email) ==> (r.Ok? <==> RoleIdOrDefault(roleId) in db.roles.rows)
    ensures r.Err? ==> r.error.Internal?
    ensures r.Ok? ==>
      var (after, resp) := r.value;
      && Consistent(after)
      && after.roles == db.roles && after.projects == db.projects && after.tasks == db.tasks
      && resp.user.id !in db.users.rows
      && resp.user.id == db.users.next && after.users.next == db.users.next + 1
      && after.users.rows == db.users.rows[resp.user.id := User(email, HashPassword(h, password), RoleIdOrDefault(roleId))]
      && Login(sign, LoadUser(after, resp.user.id)) == Ok(resp)
      && resp.user.role.id == RoleIdOrDefault(roleId)
  {
    if UserWithEmail(db.users, email).Some? then Err(Internal(UserExists))
    else
      match InsertUser(db, h, User(email, password, RoleIdOrDefault(roleId)))
      case Err(e) => Err(e)
      case Ok((after, id)) =>
        match Login(sign, LoadUser(after, id))
        case Err(e) => Err(e)
        case Ok(resp) => Ok((after, resp))
  }

  /** Register and login converge: right after a successful registration,
      logging in with the same email and password yields exactly the
      registration's answer. */
  lemma RegisterThenLogin(db: Db, h: Hasher, sign: Signer, email: string, password: string,
                          roleId: Option<int>)
    requires Consistent(db) && Sound(h)
    requires password != "" && !StartsWith(password, HashPrefix)
    requires Register(db, h, sign, email, password, roleId).Ok?
    ensures var (after, resp) := Register(db, h, sign, email, password, roleId).value;
            && ValidateCredentials(after, h, email, password).Ok?
            && Login(sign, ValidateCredentials(after, h, email, password).value) == Ok(resp)
  {
    var (after, resp) := Register(db, h, sign, email, password, roleId).value;
    var id := resp.user.id;
    assert after.users.rows[id].email == email;
    assert ValidatePassword(h, after.users.rows[id].password, password);
    var u := ValidateCredentials(after, h, email, password).value;
    assert u.id == id;
  }
}

=== FILE: controllers.dfy ===
/** The four controllers (backend/src/controllers): each CRUD request runs
    the guard chain of its route and then the service method its handler
    delegates to; the auth routes run the local strategy or nothing. Path
    parameters arrive as numbers; the `projectId` query of `GET /tasks`
    arrives as text and goes through unary `+`. */
module Controllers {
  import opened Results
  import opened Permissions
  import opened Schema
  import opened Registry
  import AuthService
  import UserService
  import ProjectService
  import TaskService

  // ---------------------------------------------------------------------
  // Unary `+` on a query string
  // ---------------------------------------------------------------------

  /** The value of a string of decimal digits. */
  function DigitsValue(s: string): nat
    requires AllDigits(s)
  {
    if |s| == 0 then 0
    else 10 * DigitsValue(s[..|s| - 1]) + (s[|s| - 1] as int - '0' as int)
  }

  /** The texts unary `+` turns into an integer: digits (none at all gives
      0), or digits after one sign. */
  predicate NumericText(s: string) {
    AllDigits(s) || (|s| > 1 && (s[0] == '-' || s[0] == '+') && AllDigits(s[1..]))
  }

  /** `Number.MAX_SAFE_INTEGER`: up to it, a JavaScript number holds an
      integer exactly and `${n}` prints it in plain decimal. */
  const MaxSafeInteger: int := 0x1F_FFFF_FFFF_FFFF

  /** `+s` */
  function ToNumber(s: string): (r: JsNumber)
    ensures r.Finite? <==> NumericText(s)
    ensures r.Finite? && |s| > 0 && s[0] == '-' ==> r.n <= 0
    ensures r.Finite? && !(|s| > 0 && s[0] == '-') ==> r.n >= 0
    ensures s == "" ==> r == Finite(0)
    ensures |s| > 1 && s[0] == '+' && AllDigits(s[1..]) ==> r == ToNumber(s[1..])
    ensures |s| > 1 && s[0] == '-' && AllDigits(s[1..]) ==> r == Finite(-ToNumber(s[1..]).n)
  {
    if AllDigits(s) then Finite(DigitsValue(s))
    else if |s| > 1 && s[0] == '-' && AllDigits(s[1..]) then Finite(-(DigitsValue(s[1..]) as int))
    else if |s| > 1 && s[0] == '+' && AllDigits(s[1..]) then Finite(DigitsValue(s[1..]))
    else NaN
  }

  lemma {:induction false} DigitsValueOfNatToString(n: nat)
    ensures DigitsValue(NatToString(n)) == n
  {
    if n >= 10 {
      var s := NatToString(n);
      assert s == NatToString(n / 10) + [DigitChar(n % 10)];
      assert s[..|s| - 1] == NatToString(n / 10);
      DigitsValueOfNatToString(n / 10);
    }
  }

  /** A leading zero does not change the value of a digit string. */
  lemma {:induction false} LeadingZeroIgnored(s: string)
    requires AllDigits(s)
    ensures AllDigits("0" + s) && DigitsValue("0" + s) == DigitsValue(s)
  {
    var z := "0" + s;
    assert AllDigits(z) by {
      forall i | 0 <= i < |z| ensures IsDigit(z[i]) {
        if i > 0 { assert z[i] == s[i - 1]; }
      }
    }
    if |s| > 0 {
      var p := s[..|s| - 1];
      assert z[..|z| - 1] == "0" + p;
      assert z[|z| - 1] == s[|s| - 1];
      LeadingZeroIgnored(p);
    }
  }

  /** `+"007"` is 7: leading zeros are ignored. */
  lemma ToNumberIgnoresLeadingZero(s: string)
    requires AllDigits(s)
    ensures ToNumber("0" + s) == ToNumber(s)
  {
    LeadingZeroIgnored(s);
  }

  /** Digits with no leading zero (or the single digit 0): the way a
      template literal prints a natural number. */
  predicate CanonicalDigits(s: string) {
    |s| > 0 && AllDigits(s) && (|s| == 1 || s[0] != '0')
  }

  /** The way a template literal prints an integer. */
  predicate CanonicalNumeral(s: string) {
    CanonicalDigits(s) || (|s| > 1 && s[0] == '-' && s[1] != '0' && CanonicalDigits(s[1..]))
  }

  lemma {:induction false} DigitsValuePositive(s: string)
    requires |s| > 0 && AllDigits(s) && s[0] != '0'
    ensures DigitsValue(s) > 0
  {
    if |s| > 1 {
      var p := s[..|s| - 1];
      assert p[0] == s[0];
      DigitsValuePositive(p);
    }
  }

  lemma {:induction false} NatToStringOfDigitsValue(s: string)
    requires CanonicalDigits(s)
    ensures NatToString(DigitsValue(s)) == s
  {
    var d := s[|s| - 1] as int - '0' as int;
    if |s| == 1 {
      assert s[..0] == "";
      assert [DigitChar(d)] == s;
    } else {
      var p := s[..|s| - 1];
      assert p[0] == s[0];
      DigitsValuePositive(p);
      NatToStringOfDigitsValue(p);
      var v := DigitsValue(s);
      assert v == 10 * DigitsValue(p) + d;
      assert v / 10 == DigitsValue(p) && v % 10 == d;
      assert DigitChar(d) == s[|s| - 1];
      assert s == p + [s[|s| - 1]];
    }
  }

  /** The converse round trip: a template literal prints back every
      numeral it could have printed. */
  lemma IntToStringInvertsToNumber(s: string)
    requires CanonicalNumeral(s)
    ensures ToNumber(s).Finite? && IntToString(ToNumber(s).n) == s
  {
    if CanonicalDigits(s) {
      NatToStringOfDigitsValue(s);
    } else {
      assert !IsDigit(s[0]);
      NatToStringOfDigitsValue(s[1..]);
      DigitsValuePositive(s[1..]);
      assert s == "-" + s[1..];
    }
  }

  /** `+` reads back every safe integer (at most 2^53 - 1 in magnitude,
      which includes every key) as `${id}` prints it. */
  lemma ToNumberReadsIntToString(i: int)
    requires -MaxSafeInteger <= i <= MaxSafeInteger
    ensures ToNumber(IntToString(i)) == Finite(i)
  {
    if i < 0 {
      var s := IntToString(i);
      assert s[1..] == NatToString(-i);
      assert !IsDigit(s[0]);
      DigitsValueOfNatToString(-i);
    } else {
      DigitsValueOfNatToString(i);
    }
  }

  /** `projectId ? +projectId : undefined` */
  function ProjectIdQuery(q: Option<string>): (r: Option<JsNumber>)
    ensures r.Some? <==> q.Some? && q.value != ""
    ensures r.Some? ==> (r.value.Finite? <==> NumericText(q.value))
    ensures r.Some? ==> r.value == ToNumber(q.value)
  {
    if TruthyString(q) then Some(ToNumber(q.value)) else None
  }

  /** A `projectId` query the database refuses: a truthy number outside
      the range of the key column. */
  predicate ListRefused(q: Option<string>) {
    TaskService.Filters(ProjectIdQuery(q)) && !InInt4(ProjectIdQuery(q).value.n)
  }

  // ---------------------------------------------------------------------
  // Requests and answers of the CRUD controllers
  // ---------------------------------------------------------------------

  /** One request to a CRUD handler, with its parsed parameters. */
  datatype Call =
    | CreateProject(projectDraft: ProjectService.ProjectDraft)
    | ListProjects
    | GetProject(id: int)
    | UpdateProject(id: int, projectPatch: ProjectService.ProjectPatch)
    | RemoveProject(id: int)
    | CreateTask(taskDraft: TaskService.TaskDraft)
    | ListTasks(projectId: Option<string>)
    | GetTask(id: int)
    | UpdateTask(id: int, taskPatch: TaskService.TaskPatch)
    | RemoveTask(id: int)
    | CreateUser(newUser: UserService.NewUser)
    | ListUsers
    | GetUser(id: int)
    | UpdateUser(id: int, userPatch: UserService.UserPatch)
    | RemoveUser(id: int)
  {
    /** The handlers that only query. */
    predicate IsRead() {
      ListProjects? || GetProject? || ListTasks? || GetTask? || ListUsers? || GetUser?
    }
  }

  /** What a handler answers. A removed entity comes back without its key. */
  datatype Reply =
    | ProjectRow(projectId: int, project: Project)
    | ProjectRemoved(project: Project)
    | ProjectList(projects: map<int, Project>)
    | TaskRow(taskId: int, task: Task)
    | TaskRemoved(task: Task)
    | TaskList(tasks: map<int, Task>)
    | UserRow(user: UserService.PublicUser)
    | UserView(summary: UserService.UserSummary)
    | UserList(users: map<int, UserService.UserSummary>)
    | Message(text: string)

  /** The route a call is dispatched on. */
  function RouteOf(c: Call): Route {
    match c
    case CreateProject(_) => Route(Post, Projects, Root)
    case ListProjects => Route(Get, Projects, Root)
    case GetProject(_) => Route(Get, Projects, ById)
    case UpdateProject(_, _) => Route(Patch, Projects, ById)
    case RemoveProject(_) => Route(Delete, Projects, ById)
    case CreateTask(_) => Route(Post, Tasks, Root)
    case ListTasks(_) => Route(Get, Tasks, Root)
    case GetTask(_) => Route(Get, Tasks, ById)
    case UpdateTask(_, _) => Route(Patch, Tasks, ById)
    case RemoveTask(_) => Route(Delete, Tasks, ById)
    case CreateUser(_) => Route(Post, Users, Root)
    case ListUsers => Route(Get, Users, Root)
    case GetUser(_) => Route(Get, Users, ById)
    case UpdateUser(_, _) => Route(Patch, Users, ById)
    case RemoveUser(_) => Route(Delete, Users, ById)
  }

  /** The pair each handler's `@RequirePermissions` names, call by call. */
  function RequiredPair(c: Call): Requirement {
    match c
    case CreateProject(_) => Requirement("projects", "create")
    case ListProjects => Requirement("projects", "read")
    case GetProject(_) => Requirement("projects", "read")
    case UpdateProject(_, _) => Requirement("projects", "update")
    case RemoveProject(_) => Requirement("projects", "delete")
    case CreateTask(_) => Requirement("tasks", "create")
    case ListTasks(_) => Requirement("tasks", "read")
    case GetTask(_) => Requirement("tasks", "read")
    case UpdateTask(_, _) => Requirement("tasks", "update")
    case RemoveTask(_) => Requirement("tasks", "delete")
    case CreateUser(_) => Requirement("users", "create")
    case ListUsers => Requirement("users", "read")
    case GetUser(_) => Requirement("users", "read")
    case UpdateUser(_, _) => Requirement("users", "update")
    case RemoveUser(_) => Requirement("users", "delete")
  }

  /** Every call lands on a registered route guarded by JWT and
      permissions, whose requirement is exactly the call's pair. */
  lemma CallRoute(c: Call)
    ensures RouteOf(c) in HandlerRequirements
    ensures HandlerRequirements[RouteOf(c)] == [RequiredPair(c)]
    ensures GuardChain(RouteOf(c)) == [JwtAuth, PermissionsCheck]
    ensures Requirement(ResourceName(RouteOf(c).controller), ActionFor(RouteOf(c).verb)) == RequiredPair(c)
  {
    var r := RouteOf(c);
    assert r in CrudRoutes(r.controller);
    RegistryShape(r);
  }

  /** The guard's answer for a decoded principal on the call's route. */
  predicate Allowed(user: Option<Principal>, c: Call) {
    PermissionsOf(user).Some? && Granted(PermissionsOf(user).value, RequiredPair(c))
  }

  /** The calls each controller handles. */
  predicate ProjectCall(c: Call) {
    c.CreateProject? || c.ListProjects? || c.GetProject? || c.UpdateProject? || c.RemoveProject?
  }

  predicate TaskCall(c: Call) {
    c.CreateTask? || c.ListTasks? || c.GetTask? || c.UpdateTask? || c.RemoveTask?
  }

  /** ProjectController's handler bodies; `req.user` is passed on. */
  function ProjectHandler(db: Db, user: Principal, c: Call): (r: Result<(Db, Reply)>)
    requires Consistent(db) && ProjectCall(c)
    ensures r.Ok? ==> Consistent(r.value.0) && r.value.0.roles == db.roles && r.value.0.users == db.users
    ensures r.Ok? && c.IsRead() ==> r.value.0 == db
    ensures c.ListProjects? ==> (r.Ok? <==> user.role.Some?)
    ensures r.Ok? && c.CreateProject? ==>
      r.value.1.ProjectRow? && r.value.1.project.createdById == user.id
      && r.value.0.projects.rows == db.projects.rows[r.value.1.projectId := r.value.1.project]
  {
    match c
    case CreateProject(draft) =>
      (match ProjectService.Create(db, draft, user)
       case Err(e) => Err(e)
       case Ok((after, id)) => Ok((after, ProjectRow(id, after.projects.rows[id]))))
    case ListProjects =>
      (match ProjectService.FindAll(db, user)
       case Err(e) => Err(e)
       case Ok(rows) => Ok((db, ProjectList(rows))))
    case GetProject(id) =>
      (match ProjectService.FindOne(db, id)
       case Err(e) => Err(e)
       case Ok(p) => Ok((db, ProjectRow(id, p))))
    case UpdateProject(id, patch) =>
      (match ProjectService.Update(db, id, patch)
       case Err(e) => Err(e)
       case Ok((after, saved)) => Ok((after, ProjectRow(id, saved))))
    case RemoveProject(id) =>
      (match ProjectService.Remove(db, id)
       case Err(e) => Err(e)
       case Ok((after, removed)) => Ok((after, ProjectRemoved(removed))))
  }

  /** TaskController's handler bodies. */
  function TaskHandler(db: Db, c: Call): (r: Result<(Db, Reply)>)
    requires Consistent(db) && TaskCall(c)
    ensures r.Ok? ==>
      Consistent(r.value.0) && r.value.0.roles == db.roles && r.value.0.users == db.users
      && r.value.0.projects == db.projects
    ensures r.Ok? && c.IsRead() ==> r.value.0 == db
    ensures c.ListTasks? ==> (r.Ok? <==> !ListRefused(c.projectId))
    ensures c.ListTasks? && r.Ok? ==>
      r.value.1 == TaskList(TaskService.FindAll(db, ProjectIdQuery(c.projectId)).value)
    ensures c.CreateTask? ==>
      && (r.Ok? <==> c.taskDraft.projectId in db.projects.rows)
      && (r.Ok? ==> r.value.1.TaskRow? && r.value.1.taskId !in db.tasks.rows
                    && r.value.0.tasks.rows == db.tasks.rows[r.value.1.taskId := r.value.1.task])
    ensures c.GetTask? ==>
      && (r.Ok? <==> c.id in db.tasks.rows)
      && (r.Ok? ==> r.value.1 == TaskRow(c.id, db.tasks.rows[c.id]))
    ensures c.UpdateTask? ==>
      && (r.Ok? <==> c.id in db.tasks.rows)
      && (r.Ok? ==> r.value.1 == TaskRow(c.id, TaskService.Merge(db.tasks.rows[c.id], c.taskPatch)))
    ensures c.RemoveTask? ==>
      && (r.Ok? <==> c.id in db.tasks.rows)
      && (r.Ok? ==> r.value.1 == TaskRemoved(db.tasks.rows[c.id])
                    && r.value.0.tasks.rows == db.tasks.rows - {c.id})
  {
    match c
    case CreateTask(draft) =>
      (match TaskService.Create(db, draft)
       case Err(e) => Err(e)
       case Ok((after, id)) => Ok((after, TaskRow(id, after.tasks.rows[id]))))
    case ListTasks(q) =>
      (match TaskService.FindAll(db, ProjectIdQuery(q))
       case Err(e) => Err(e)
       case Ok(rows) => Ok((db, TaskList(rows))))
    case GetTask(id) =>
      (match TaskService.FindOne(db, id)
       case Err(e) => Err(e)
       case Ok(t) => Ok((db, TaskRow(id, t))))
    case UpdateTask(id, patch) =>
      (match TaskService.Update(db, id, patch)
       case Err(e) => Err(e)
       case Ok((after, saved)) => Ok((after, TaskRow(id, saved))))
    case RemoveTask(id) =>
      (match TaskService.Remove(db, id)
       case Err(e) => Err(e)
       case Ok((after, removed)) => Ok((after, TaskRemoved(removed))))
  }

  /** UserController's handler bodies. */
  function UserHandler(db: Db, h: Hasher, c: Call): (r: Result<(Db, Reply)>)
    requires Consistent(db) && !ProjectCall(c) && !TaskCall(c)
    ensures r.Ok? ==> Consistent(r.value.0) && r.value.0.roles == db.roles && r.value.0.tasks == db.tasks
    ensures r.Ok? && c.IsRead() ==> r.value.0 == db
    ensures c.CreateUser? && r.Ok? ==>
      r.value.1.UserRow? && r.value.1.user.id !in db.users.rows && r.value.1.user.email == c.newUser.email
      && r.value.1.user.roleId == RoleIdOrDefault(c.newUser.roleId)
    ensures c.ListUsers? ==> r == Ok((db, UserList(UserService.FindAll(db))))
    ensures c.GetUser? ==>
      && (r.Ok? <==> c.id in db.users.rows)
      && (r.Ok? ==> r.value.1 == UserView(UserService.FindAll(db)[c.id]))
    ensures c.UpdateUser? && r.Ok? ==>
      && c.id in db.users.rows && c.id in r.value.0.users.rows
      && r.value.1.UserRow? && r.value.1.user.id == c.id
      && r.value.1.user.email == r.value.0.users.rows[c.id].email
    ensures c.RemoveUser? && r.Ok? ==>
      r.value.0.users.rows == db.users.rows - {c.id}
      && r.value.1 == Message("User #" + IntToString(c.id) + " removed successfully")
  {
    match c
    case CreateUser(dto) =>
      (match UserService.Create(db, h, dto)
       case Err(e) => Err(e)
       case Ok((after, view)) => Ok((after, UserRow(view))))
    case ListUsers =>
      Ok((db, UserList(UserService.FindAll(db))))
    case GetUser(id) =>
      (match UserService.FindOne(db, id)
       case Err(e) => Err(e)
       case Ok(s) => Ok((db, UserView(s))))
    case UpdateUser(id, patch) =>
      (match UserService.Update(db, h, id, patch)
       case Err(e) => Err(e)
       case Ok((after, view)) => Ok((after, UserRow(view))))
    case RemoveUser(id) =>
      (match UserService.Remove(db, id)
       case Err(e) => Err(e)
       case Ok((after, message)) => Ok((after, Message(message))))
  }

  /** The handler body: the service call with the request's parameters and
      `req.user`. */
  function Perform(db: Db, h: Hasher, user: Principal, c: Call): (r: Result<(Db, Reply)>)
    requires Consistent(db)
    ensures r.Ok? ==> Consistent(r.value.0)
    ensures r.Ok? && c.IsRead() ==> r.value.0 == db
    ensures r.Ok? ==> r.value.0.roles == db.roles
    ensures c.ListProjects? ==> (r.Ok? <==> user.role.Some?)
    ensures r.Ok? && c.CreateProject? ==>
      r.value.1.ProjectRow? && r.value.1.project.createdById == user.id
      && r.value.0.projects.rows == db.projects.rows[r.value.1.projectId := r.value.1.project]
    ensures c.ListTasks? ==> (r.Ok? <==> !ListRefused(c.projectId))
  {
    if ProjectCall(c) then ProjectHandler(db, user, c)
    else if TaskCall(c) then TaskHandler(db, c)
    else UserHandler(db, h, c)
  }

  /** A request to a CRUD route: JwtAuthGuard, PermissionsGuard, then the
      handler. */
  function Handle(db: Db, h: Hasher, token: Option<string>, decode: Decoder, c: Call): (r: Result<(Db, Reply)>)
    requires Consistent(db)
    ensures token.None? || decode(token.value).None? ==> r == Err(Unauthorized("Unauthorized"))
    ensures token.Some? && decode(token.value).Some? && !Allowed(decode(token.value), c) ==>
      r == Err(Forbidden("Forbidden resource"))
    ensures token.Some? && decode(token.value).Some? && Allowed(decode(token.value), c) ==>
      r == Perform(db, h, decode(token.value).value, c)
    ensures r.Ok? ==> Consistent(r.value.0) && Allowed(decode(token.value), c)
  {
    CallRoute(c);
    ProtectedRouteDecision(RouteOf(c), token, decode);
    match Admit(RouteOf(c), token, decode)
    case Err(e) => Err(e)
    case Ok(p) => Perform(db, h, p, c)
  }

  /** Whoever the guards admit to `GET /projects` gets the whole table:
      admission implies a role, so the role test of the service never
      throws. */
  lemma AdmittedListProjects(db: Db, h: Hasher, token: Option<string>, decode: Decoder)
    requires Consistent(db)
    requires token.Some? && decode(token.value).Some? && Allowed(decode(token.value), ListProjects)
    ensures Handle(db, h, token, decode, ListProjects) == Ok((db, ProjectList(db.projects.rows)))
  {
  }

  /** `GET /tasks?projectId=<text>` for any text `+` reads as a non-zero
      key within the range of the key column lists exactly the tasks of
      that project: "7", "007" and "+7" alike. */
  lemma ListTasksOfProject(db: Db, h: Hasher, user: Principal, q: string)
    requires Consistent(db) && NumericText(q)
    requires ToNumber(q).n != 0 && InInt4(ToNumber(q).n)
    ensures Perform(db, h, user, ListTasks(Some(q))).Ok?
    ensures var rows := Perform(db, h, user, ListTasks(Some(q))).value.1.tasks;
            forall t :: t in rows <==> t in db.tasks.rows && db.tasks.rows[t].projectId == ToNumber(q).n
  {
  }

  /** In particular, the printing of every non-zero key selects that key. */
  lemma ListTasksOfKey(db: Db, h: Hasher, user: Principal, pid: int)
    requires Consistent(db) && pid != 0 && InInt4(pid)
    ensures Perform(db, h, user, ListTasks(Some(IntToString(pid)))).Ok?
    ensures var rows := Perform(db, h, user, ListTasks(Some(IntToString(pid)))).value.1.tasks;
            forall t :: t in rows <==> t in db.tasks.rows && db.tasks.rows[t].projectId == pid
  {
    ToNumberReadsIntToString(pid);
    ListTasksOfProject(db, h, user, IntToString(pid));
  }

  /** "007" and "+7" select project 7, as "7" does. */
  lemma ListTasksOfProjectSevenExamples(db: Db, h: Hasher, user: Principal)
    requires Consistent(db)
    ensures ToNumber("007") == Finite(7) && ToNumber("+7") == Finite(7)
    ensures Perform(db, h, user, ListTasks(Some("007"))) == Perform(db, h, user, ListTasks(Some("7")))
    ensures Perform(db, h, user, ListTasks(Some("+7"))) == Perform(db, h, user, ListTasks(Some("7")))
  {
    assert "7"[..0] == "";
    ToNumberIgnoresLeadingZero("7");
    assert "0" + "7" == "07";
    ToNumberIgnoresLeadingZero("07");
    assert "0" + "07" == "007";
    assert "+7"[1..] == "7";
  }

  /** A numeric `projectId` beyond the range of the key column is refused
      by the database: the answer is a 500, not a list. */
  lemma ListTasksOutOfRange(db: Db, h: Hasher, user: Principal, q: string)
    requires Consistent(db) && NumericText(q) && q != ""
    requires !InInt4(ToNumber(q).n)
    ensures Perform(db, h, user, ListTasks(Some(q))) == Err(Internal(OutOfRange))
  {
  }

  /** A missing, empty, zero or non-numeric `projectId` lists every task. */
  lemma ListTasksUnfiltered(db: Db, h: Hasher, user: Principal, q: Option<string>)
    requires Consistent(db)
    requires q.None? || !NumericText(q.value) || ToNumber(q.value) == Finite(0)
    ensures Perform(db, h, user, ListTasks(q)) == Ok((db, TaskList(db.tasks.rows)))
  {
  }

  /** `GET /tasks?projectId=0` and `GET /tasks?projectId=abc` list every task. */
  lemma ListTasksFalsyExamples(db: Db, h: Hasher, user: Principal)
    requires Consistent(db)
    ensures Perform(db, h, user, ListTasks(Some("0"))) == Ok((db, TaskList(db.tasks.rows)))
    ensures Perform(db, h, user, ListTasks(Some("abc"))) == Ok((db, TaskList(db.tasks.rows)))
  {
    assert !IsDigit("abc"[0]);
    assert "0"[..0] == "";
  }

  // ---------------------------------------------------------------------
  // The auth routes
  // ---------------------------------------------------------------------

  /** `POST /auth/login`: passport-local refuses an empty email or
      password before the strategy runs (Nest answers a plain 401); else the
      local strategy validates the credentials, then `login` answers with
      the token. */
  function LoginEndpoint(db: Db, h: Hasher, sign: AuthService.Signer, email: string, password: string)
    : (r: Result<AuthService.LoginResponse>)
    requires Consistent(db)
    ensures email == "" || password == "" ==> r == Err(Unauthorized("Unauthorized"))
    ensures email != "" && password != "" && r.Err? ==> r.error == Unauthorized(AuthService.InvalidCredentials)
    ensures r.Ok? <==>
      && email != "" && password != ""
      && (exists id :: id in db.users.rows && db.users.rows[id].email == email
                       && ValidatePassword(h, db.users.rows[id].password, password))
    ensures r.Ok? ==>
      var id := UserWithEmail(db.users, email).value;
      var role := db.roles.rows[db.users.rows[id].roleId];
      && r.value.accessToken == sign(AuthService.Payload(id, email, role.name, role.permissions))
      && r.value.user.id == id && r.value.user.email == email
      && r.value.user.role.id == db.users.rows[id].roleId
  {
    if email == "" || password == "" then Err(Unauthorized("Unauthorized"))
    else match AuthService.ValidateCredentials(db, h, email, password)
    case Err(e) => Err(e)
    case Ok(user) =>
      assert user.role.Some?;
      AuthService.Login(sign, user)
  }

  /** `POST /auth/register`: no guard; the service answers directly. */
  function RegisterEndpoint(db: Db, h: Hasher, sign: AuthService.Signer, dto: UserService.NewUser)
    : (r: Result<(Db, AuthService.LoginResponse)>)
    requires Consistent(db)
    ensures r.Ok? ==> Consistent(r.value.0)
    ensures EmailTaken(db.users, dto.email) ==> r == Err(Internal(AuthService.UserExists))
    ensures r.Ok? ==> r.value.1.user.role.id == RoleIdOrDefault(dto.roleId)
                      && r.value.1.user.email == dto.email
  {
    AuthService.Register(db, h, sign, dto.email, dto.password, dto.roleId)
  }

  /** `GET /auth/profile`: the principal the JWT strategy decoded. */
  function ProfileEndpoint(token: Option<string>, decode: Decoder): (r: Result<Principal>)
    ensures r.Ok? <==> token.Some? && decode(token.value).Some?
    ensures r.Ok? ==> decode(token.value) == Some(r.value)
    ensures r.Err? ==> r.error == Unauthorized("Unauthorized")
  {
    ProfileNeedsOnlyJwt(token, decode);
    Admit(ProfileRoute, token, decode)
  }
}

=== FILE: permissions.dfy ===
/** The permission evaluator: `PermissionsGuard.canActivate`
    (backend/src/guards/permissions.guard.ts). It reads the requirement
    metadata of the handler and of its controller class and the principal
    the authentication guard left on the request, and decides allow or
    deny. It reads nothing else and changes nothing: here it is a function. */
module Permissions {
  import opened Results

  /** A role's permissions column: resource name to allowed action names. */
  type PermissionMap = map<string, seq<string>>

  /** One `{ resource, action }` pair of a `@RequirePermissions(...)`. */
  datatype Requirement = Requirement(resource: string, action: string)

  /** `request.user` as left by the authentication guard. Its role and the
      role's permissions may each be missing: the guard checks for both. */
  datatype PrincipalRole = PrincipalRole(name: string, permissions: Option<PermissionMap>)
  datatype Principal = Principal(id: int, email: string, role: Option<PrincipalRole>)

  /** `user.role.permissions`, or None when any link of the chain is missing. */
  function PermissionsOf(user: Option<Principal>): Option<PermissionMap> {
    if user.Some? && user.value.role.Some? then user.value.role.value.permissions else None
  }

  /** `permissions[resource] && permissions[resource].includes(action)` */
  predicate Granted(perms: PermissionMap, req: Requirement) {
    req.resource in perms && req.action in perms[req.resource]
  }

  /** Every pair of `reqs` is granted by `perms`. */
  ghost predicate Satisfies(perms: PermissionMap, reqs: seq<Requirement>) {
    forall i :: 0 <= i < |reqs| ==> Granted(perms, reqs[i])
  }

  /** `requiredPermissions.every(...)`, pair by pair from the front. */
  function Every(perms: PermissionMap, reqs: seq<Requirement>): (ok: bool)
    ensures ok <==> Satisfies(perms, reqs)
  {
    if |reqs| == 0 then true
    else Granted(perms, reqs[0]) && Every(perms, reqs[1..])
  }

  /** `reflector.getAllAndOverride(key, [handler, class])`: the handler's
      metadata when it has any, otherwise the class's. */
  function Lookup(handler: Option<seq<Requirement>>, cls: Option<seq<Requirement>>): (r: Option<seq<Requirement>>)
    ensures r.Some? <==> handler.Some? || cls.Some?
    ensures handler.Some? ==> r == handler
    ensures r.Some? ==> r == handler || r == cls
  {
    if handler.Some? then handler else cls
  }

  /** The guard's decision. */
  function CanActivate(handler: Option<seq<Requirement>>, cls: Option<seq<Requirement>>,
                       user: Option<Principal>): (allow: bool)
    ensures Lookup(handler, cls).None? ==> allow
    ensures Lookup(handler, cls).Some? ==>
      (allow <==> PermissionsOf(user).Some? && Satisfies(PermissionsOf(user).value, Lookup(handler, cls).value))
  {
    var required := Lookup(handler, cls);
    if required.None? then true
    else
      var perms := PermissionsOf(user);
      if perms.None? then false
      else Every(perms.value, required.value)
  }

  /** Handler metadata replaces class metadata: once the handler declares a
      requirement, the class-level one has no influence on the decision. */
  lemma HandlerOverridesClass(reqs: seq<Requirement>, cls1: Option<seq<Requirement>>,
                              cls2: Option<seq<Requirement>>, user: Option<Principal>)
    ensures CanActivate(Some(reqs), cls1, user) == CanActivate(Some(reqs), cls2, user)
    ensures CanActivate(Some(reqs), cls1, user) <==>
      PermissionsOf(user).Some? && Satisfies(PermissionsOf(user).value, reqs)
  {
  }

  /** Without handler metadata the class metadata decides, as if declared
      on the handler. */
  lemma ClassAppliesWithoutHandler(cls: Option<seq<Requirement>>, user: Option<Principal>)
    ensures CanActivate(None, cls, user) == CanActivate(cls, None, user)
  {
  }

  /** No requirement at either level: allowed, whoever (if anyone) is on
      the request. */
  lemma NoRequirementAllows(user: Option<Principal>)
    ensures CanActivate(None, None, user)
  {
  }

  /** Fail-closed: a requirement is present but the user, its role or the
      role's permissions are missing, so the guard denies. */
  lemma MissingPermissionsDeny(handler: Option<seq<Requirement>>, cls: Option<seq<Requirement>>,
                               user: Option<Principal>)
    requires handler.Some? || cls.Some?
    requires user.None? || user.value.role.None? || user.value.role.value.permissions.None?
    ensures !CanActivate(handler, cls, user)
  {
  }

  /** An empty but present requirement list admits exactly the principals
      that carry a permissions map, whatever it holds. */
  lemma EmptyRequirementNeedsOnlyPermissions(cls: Option<seq<Requirement>>, user: Option<Principal>)
    ensures CanActivate(Some([]), cls, user) <==> PermissionsOf(user).Some?
  {
  }

  /** `big` grants every action `small` grants (and possibly more). */
  ghost predicate Extends(small: PermissionMap, big: PermissionMap) {
    forall r :: r in small ==> r in big && forall a :: a in small[r] ==> a in big[r]
  }

  /** Monotone in grants: a principal with more permissions is allowed
      whatever a principal with fewer is allowed. */
  lemma MoreGrantsNeverDeny(handler: Option<seq<Requirement>>, cls: Option<seq<Requirement>>,
                            u1: Option<Principal>, u2: Option<Principal>)
    requires PermissionsOf(u1).Some? ==>
      PermissionsOf(u2).Some? && Extends(PermissionsOf(u1).value, PermissionsOf(u2).value)
    ensures CanActivate(handler, cls, u1) ==> CanActivate(handler, cls, u2)
  {
    var required := Lookup(handler, cls);
    if required.Some? && CanActivate(handler, cls, u1) {
      var p1, p2 := PermissionsOf(u1).value, PermissionsOf(u2).value;
      forall i | 0 <= i < |required.value|
        ensures Granted(p2, required.value[i])
      {
        assert Granted(p1, required.value[i]);
      }
    }
  }

  /** Anti-monotone in requirements: demanding more pairs never turns a
      denial into an allow. */
  lemma MoreRequirementsNeverAllow(reqs: seq<Requirement>, extra: seq<Requirement>,
                                   cls: Option<seq<Requirement>>, user: Option<Principal>)
    ensures CanActivate(Some(reqs + extra), cls, user) ==> CanActivate(Some(reqs), cls, user)
  {
    if CanActivate(Some(reqs + extra), cls, user) {
      var perms := PermissionsOf(user).value;
      forall i | 0 <= i < |reqs|
        ensures Granted(perms, reqs[i])
      {
        assert (reqs + extra)[i] == reqs[i];
      }
    }
  }

  /** The order of the pairs does not matter, only which pairs there are. */
  lemma RequirementOrderIrrelevant(reqs1: seq<Requirement>, reqs2: seq<Requirement>,
                                   cls: Option<seq<Requirement>>, user: Option<Principal>)
    requires forall q :: q in reqs1 <==> q in reqs2
    ensures CanActivate(Some(reqs1), cls, user) == CanActivate(Some(reqs2), cls, user)
  {
    if PermissionsOf(user).Some? {
      var perms := PermissionsOf(user).value;
      if Satisfies(perms, reqs1) {
        forall i | 0 <= i < |reqs2| ensures Granted(perms, reqs2[i]) {
          assert reqs2[i] in reqs1;
        }
      }
      if Satisfies(perms, reqs2) {
        forall i | 0 <= i < |reqs1| ensures Granted(perms, reqs1[i]) {
          assert reqs1[i] in reqs2;
        }
      }
    }
  }

  function WithPermissions(perms: PermissionMap): Option<Principal> {
    Some(Principal(1, "someone@example.com", Some(PrincipalRole("role", Some(perms)))))
  }

  /** Several pairs are AND-ed: `{(A, read), (B, write)}` denies a principal
      holding only `(A, read)` and allows one holding both. */
  lemma AndSemanticsExample()
    ensures !CanActivate(Some([Requirement("A", "read"), Requirement("B", "write")]), None,
                         WithPermissions(map["A" := ["read"]]))
    ensures CanActivate(Some([Requirement("A", "read"), Requirement("B", "write")]), None,
                        WithPermissions(map["A" := ["read"], "B" := ["write"]]))
  {
    assert !Granted(map["A" := ["read"]], Requirement("B", "write"));
  }

  /** Override, not merge: a handler requiring `(tasks, read)` on a class
      requiring `(tasks, update)` denies a principal that may only update
      tasks, although the class requirement alone would admit it. */
  lemma OverrideExample()
    ensures !CanActivate(Some([Requirement("tasks", "read")]), Some([Requirement("tasks", "update")]),
                         WithPermissions(map["tasks" := ["update"]]))
    ensures CanActivate(Some([Requirement("tasks", "update")]), None,
                        WithPermissions(map["tasks" := ["update"]]))
  {
    assert !Granted(map["tasks" := ["update"]], Requirement("tasks", "read"));
  }
}

=== FILE: project_service.dfy ===
/** `ProjectService` (backend/src/services/project.service.ts). */
module ProjectService {
  import opened Results
  import opened Tables
  import opened Permissions
  import opened Schema

  /** CreateProjectDto */
  datatype ProjectDraft = ProjectDraft(name: string, description: Option<string>)

  /** UpdateProjectDto: every field of CreateProjectDto, optional. */
  datatype ProjectPatch = ProjectPatch(name: Option<string>, description: Option<string>)

  /** What `findAll` throws on `user.role.name` when the principal has no role. */
  const NoRoleOnPrincipal: string := "Cannot read properties of undefined (reading 'name')"

  function ProjectNotFound(id: int): Error {
    NotFound("Project #" + IntToString(id) + " not found")
  }

  /** `create(createProjectDto, user)`: the acting principal becomes the
      owner; the foreign key rejects a principal that is no stored user. */
  function Create(db: Db, draft: ProjectDraft, user: Principal): (r: Result<(Db, int)>)
    requires Consistent(db)
    ensures r.Ok? <==> user.id in db.users.rows
    ensures r.Err? ==> r.error == Internal(ForeignKeyViolation)
    ensures r.Ok? ==>
      var (after, id) := r.value;
      && Consistent(after)
      && id !in db.projects.rows
      && id == db.projects.next && after.projects.next == db.projects.next + 1
      && after.projects.rows == db.projects.rows[id := Project(draft.name, draft.description, user.id)]
      && after.roles == db.roles && after.users == db.users && after.tasks == db.tasks
  {
    if user.id !in db.users.rows then Err(Internal(ForeignKeyViolation))
    else
      var (projects, id) := Insert(db.projects, Project(draft.name, draft.description, user.id));
      Ok((db.(projects := projects), id))
  }

  /** `findAll(user)`: both branches of the role test run the same query. */
  function FindAll(db: Db, user: Principal): (r: Result<map<int, Project>>)
    ensures r.Ok? <==> user.role.Some?
    ensures r.Ok? ==> r.value == db.projects.rows
    ensures r.Err? ==> r.error == Internal(NoRoleOnPrincipal)
  {
    if user.role.None? then Err(Internal(NoRoleOnPrincipal))
    else if user.role.value.name == "viewer" then Ok(db.projects.rows)
    else Ok(db.projects.rows)
  }

  /** Viewers and everyone else get the same list. */
  lemma FindAllIgnoresRole(db: Db, u1: Principal, u2: Principal)
    requires u1.role.Some? && u2.role.Some?
    ensures FindAll(db, u1) == FindAll(db, u2)
  {
  }

  /** `findOne(id, user)` */
  function FindOne(db: Db, id: int): (r: Result<Project>)
    ensures r.Ok? <==> id in db.projects.rows
    ensures r.Ok? ==> r.value == db.projects.rows[id]
    ensures r.Err? ==> r.error == ProjectNotFound(id)
  {
    if id in db.projects.rows then Ok(db.projects.rows[id]) else Err(ProjectNotFound(id))
  }

  /** `Object.assign(project, updateProjectDto)` */
  function Merge(p: Project, patch: ProjectPatch): (r: Project)
    ensures r.createdById == p.createdById
    ensures r.name == (if patch.name.Some? then patch.name.value else p.name)
    ensures r.description == (if patch.description.Some? then patch.description else p.description)
  {
    Project(patch.name.GetOr(p.name), if patch.description.Some? then patch.description else p.description, p.createdById)
  }

  /** `update(id, updateProjectDto, user)` */
  function Update(db: Db, id: int, patch: ProjectPatch): (r: Result<(Db, Project)>)
    requires Consistent(db)
    ensures r.Ok? <==> id in db.projects.rows
    ensures r.Err? ==> r.error == ProjectNotFound(id)
    ensures r.Ok? ==>
      var (after, saved) := r.value;
      && Consistent(after)
      && saved == Merge(db.projects.rows[id], patch)
      && saved.createdById == db.projects.rows[id].createdById
      && after.projects.rows == db.projects.rows[id := saved] && after.projects.next == db.projects.next
      && after.roles == db.roles && after.users == db.users && after.tasks == db.tasks
  {
    match FindOne(db, id)
    case Err(e) => Err(e)
    case Ok(p) =>
      var saved := Merge(p, patch);
      Ok((db.(projects := Put(db.projects, id, saved)), saved))
  }

  /** The tasks left once the project `id` is gone: the foreign key of
      task.entity.ts deletes the others with it (ON DELETE CASCADE). */
  function Cascade(tasks: Table<Task>, id: int): (r: Table<Task>)
    requires tasks.Valid()
    ensures r.Valid() && r.next == tasks.next
    ensures forall t :: t in r.rows <==> t in tasks.rows && tasks.rows[t].projectId != id
    ensures forall t :: t in r.rows ==> r.rows[t] == tasks.rows[t]
  {
    Table(map t | t in tasks.rows && tasks.rows[t].projectId != id :: tasks.rows[t], tasks.next)
  }

  /** `remove(id, user)` */
  function Remove(db: Db, id: int): (r: Result<(Db, Project)>)
    requires Consistent(db)
    ensures r.Ok? <==> id in db.projects.rows
    ensures r.Err? ==> r.error == ProjectNotFound(id)
    ensures r.Ok? ==>
      var (after, removed) := r.value;
      && Consistent(after)
      && removed == db.projects.rows[id]
      && after.projects.rows == db.projects.rows - {id} && after.projects.next == db.projects.next
      && (forall t :: t in after.tasks.rows <==> t in db.tasks.rows && db.tasks.rows[t].projectId != id)
      && after.tasks == Cascade(db.tasks, id)
      && after.roles == db.roles && after.users == db.users
  {
    match FindOne(db, id)
    case Err(e) => Err(e)
    case Ok(p) => Ok((db.(projects := Delete(db.projects, id), tasks := Cascade(db.tasks, id)), p))
  }
}

=== FILE: registry.dfy ===
/** The routes of the four controllers (backend/src/controllers), their
    guards and the `@RequirePermissions` metadata, as an explicit table, and
    the guard chain that runs before a protected handler. */
module Registry {
  import opened Results
  import opened Permissions

  datatype Verb = Get | Post | Patch | Delete

  /** The controllers, by path prefix: `auth`, `projects`, `tasks`, `users`. */
  datatype Controller = Auth | Projects | Tasks | Users

  /** A handler's own path below its prefix: none, `:id`, or one of the
      auth routes. */
  datatype Path = Root | ById | RegisterPath | LoginPath | ProfilePath

  /** A route: verb, controller and the handler's own path. */
  datatype Route = Route(verb: Verb, controller: Controller, path: Path)

  /** The resource name a CRUD controller's requirements use. */
  function ResourceName(c: Controller): string {
    match c
    case Auth => "auth"
    case Projects => "projects"
    case Tasks => "tasks"
    case Users => "users"
  }

  /** JwtAuthGuard, `AuthGuard('local')`, PermissionsGuard. */
  datatype Guard = JwtAuth | LocalAuth | PermissionsCheck

  const RegisterRoute: Route := Route(Post, Auth, RegisterPath)
  const LoginRoute: Route := Route(Post, Auth, LoginPath)
  const ProfileRoute: Route := Route(Get, Auth, ProfilePath)

  /** Handler-level `@RequirePermissions` metadata. */
  const HandlerRequirements: map<Route, seq<Requirement>> := map[
    Route(Post, Projects, Root) := [Requirement("projects", "create")],
    Route(Get, Projects, Root) := [Requirement("projects", "read")],
    Route(Get, Projects, ById) := [Requirement("projects", "read")],
    Route(Patch, Projects, ById) := [Requirement("projects", "update")],
    Route(Delete, Projects, ById) := [Requirement("projects", "delete")],
    Route(Post, Tasks, Root) := [Requirement("tasks", "create")],
    Route(Get, Tasks, Root) := [Requirement("tasks", "read")],
    Route(Get, Tasks, ById) := [Requirement("tasks", "read")],
    Route(Patch, Tasks, ById) := [Requirement("tasks", "update")],
    Route(Delete, Tasks, ById) := [Requirement("tasks", "delete")],
    Route(Post, Users, Root) := [Requirement("users", "create")],
    Route(Get, Users, Root) := [Requirement("users", "read")],
    Route(Get, Users, ById) := [Requirement("users", "read")],
    Route(Patch, Users, ById) := [Requirement("users", "update")],
    Route(Delete, Users, ById) := [Requirement("users", "delete")]
  ]

  /** Class-level `@RequirePermissions` metadata: no controller has any. */
  function ClassRequirements(c: Controller): Option<seq<Requirement>> {
    None
  }

  /** `@UseGuards(...)` on the controller class. */
  function ClassGuards(c: Controller): seq<Guard> {
    if c == Auth then [] else [JwtAuth, PermissionsCheck]
  }

  /** `@UseGuards(...)` on the handler. */
  function HandlerGuards(r: Route): seq<Guard> {
    if r == LoginRoute then [LocalAuth]
    else if r == ProfileRoute then [JwtAuth]
    else []
  }

  /** Nest runs the class's guards, then the handler's, in declaration order. */
  function GuardChain(r: Route): seq<Guard> {
    ClassGuards(r.controller) + HandlerGuards(r)
  }

  function HandlerMetadata(r: Route): Option<seq<Requirement>> {
    if r in HandlerRequirements then Some(HandlerRequirements[r]) else None
  }

  function ClassMetadata(r: Route): Option<seq<Requirement>> {
    ClassRequirements(r.controller)
  }

  /** The five routes every CRUD controller declares. */
  function CrudRoutes(c: Controller): set<Route> {
    { Route(Post, c, Root), Route(Get, c, Root), Route(Get, c, ById),
      Route(Patch, c, ById), Route(Delete, c, ById) }
  }

  /** The action a CRUD route stands for, by its verb. */
  function ActionFor(v: Verb): string {
    match v
    case Post => "create"
    case Get => "read"
    case Patch => "update"
    case Delete => "delete"
  }

  /** The requirement the registry holds for one CRUD route: the single
      pair (the controller's resource, the verb's action). */
  lemma RouteRequirement(r: Route)
    requires r in CrudRoutes(Projects) + CrudRoutes(Tasks) + CrudRoutes(Users)
    ensures r in HandlerRequirements
    ensures HandlerRequirements[r] == [Requirement(ResourceName(r.controller), ActionFor(r.verb))]
  {
  }

  /** Every key of the registry is one of the CRUD routes. */
  lemma RegistryKeysAreCrud(r: Route)
    requires r in HandlerRequirements
    ensures r in CrudRoutes(Projects) + CrudRoutes(Tasks) + CrudRoutes(Users)
  {
  }

  /** The registry holds exactly the CRUD routes of the projects, tasks and
      users controllers, each requiring the single pair (controller, the
      verb's action); every one of them runs JwtAuthGuard then
      PermissionsGuard, and no class-level requirement exists, so each
      handler's own requirement is the one the guard sees. */
  lemma RegistryShape(r: Route)
    ensures r in HandlerRequirements <==> r in CrudRoutes(Projects) + CrudRoutes(Tasks) + CrudRoutes(Users)
    ensures r in HandlerRequirements ==>
      && HandlerRequirements[r] == [Requirement(ResourceName(r.controller), ActionFor(r.verb))]
      && GuardChain(r) == [JwtAuth, PermissionsCheck]
      && ClassMetadata(r).None?
  {
    if r in HandlerRequirements {
      RegistryKeysAreCrud(r);
    }
    if r in CrudRoutes(Projects) + CrudRoutes(Tasks) + CrudRoutes(Users) {
      RouteRequirement(r);
      assert r.controller != Auth;
    }
  }

  /** The auth routes declare no permission requirement: register has no
      guard at all, login only the local strategy, profile only JWT. */
  lemma AuthRoutesGuards()
    ensures GuardChain(RegisterRoute) == []
    ensures GuardChain(LoginRoute) == [LocalAuth]
    ensures GuardChain(ProfileRoute) == [JwtAuth]
    ensures HandlerMetadata(RegisterRoute).None? && HandlerMetadata(LoginRoute).None?
            && HandlerMetadata(ProfileRoute).None?
    ensures ClassMetadata(RegisterRoute).None? && ClassMetadata(LoginRoute).None?
            && ClassMetadata(ProfileRoute).None?
  {
    assert RegisterRoute !in HandlerRequirements;
    assert LoginRoute !in HandlerRequirements;
    assert ProfileRoute !in HandlerRequirements;
  }

  /** How the JWT strategy turns a bearer token into `request.user`;
      signature and expiry checks included. */
  type Decoder = string -> Option<Principal>

  /** A route guarded by JWT (and possibly by permissions), not by the
      local strategy. */
  predicate JwtGuarded(r: Route) {
    GuardChain(r) == [JwtAuth, PermissionsCheck] || GuardChain(r) == [JwtAuth]
  }

  /** The guard chain of a JWT-guarded route: JwtAuthGuard (401 when the
      token is missing or does not decode), then PermissionsGuard when the
      route has it (403 when it says no). On success, the principal the
      handler receives. */
  function Admit(r: Route, token: Option<string>, decode: Decoder): (res: Result<Principal>)
    requires JwtGuarded(r)
    ensures res.Ok? ==> token.Some? && decode(token.value) == Some(res.value)
    ensures res == Err(Unauthorized("Unauthorized")) <==> token.None? || decode(token.value).None?
    ensures res.Err? ==> res.error == Unauthorized("Unauthorized") || res.error == Forbidden("Forbidden resource")
    ensures res.Ok? && PermissionsCheck in GuardChain(r) ==>
      CanActivate(HandlerMetadata(r), ClassMetadata(r), Some(res.value))
  {
    if token.None? || decode(token.value).None? then Err(Unauthorized("Unauthorized"))
    else if GuardChain(r) == [JwtAuth, PermissionsCheck]
            && !CanActivate(HandlerMetadata(r), ClassMetadata(r), decode(token.value))
    then Err(Forbidden("Forbidden resource"))
    else Ok(decode(token.value).value)
  }

  /** On a registered CRUD route, a decoded principal passes exactly when
      its role's permissions grant the route's single pair. */
  lemma ProtectedRouteDecision(r: Route, token: Option<string>, decode: Decoder)
    requires r in HandlerRequirements
    ensures JwtGuarded(r)
    ensures Admit(r, token, decode).Ok? <==>
      && token.Some? && decode(token.value).Some?
      && PermissionsOf(decode(token.value)).Some?
      && Granted(PermissionsOf(decode(token.value)).value, Requirement(ResourceName(r.controller), ActionFor(r.verb)))
  {
    RegistryShape(r);
    if token.Some? && decode(token.value).Some? && PermissionsOf(decode(token.value)).Some? {
      var perms := PermissionsOf(decode(token.value)).value;
      var req := Requirement(ResourceName(r.controller), ActionFor(r.verb));
      assert HandlerMetadata(r) == Some([req]);
      assert [req][0] == req;
      assert Satisfies(perms, [req]) <==> Granted(perms, req);
    }
  }

  /** `GET /auth/profile` needs a decodable token and nothing else, and
      answers the principal unchanged. */
  lemma ProfileNeedsOnlyJwt(token: Option<string>, decode: Decoder)
    ensures JwtGuarded(ProfileRoute)
    ensures Admit(ProfileRoute, token, decode).Ok? <==> token.Some? && decode(token.value).Some?
    ensures Admit(ProfileRoute, token, decode).Ok? ==>
      Some(Admit(ProfileRoute, token, decode).value) == decode(token.value)
  {
    AuthRoutesGuards();
  }
}

=== FILE: results.dfy ===
/** Option/Result values for the backend's error paths, and the few
    JavaScript value conventions (truthiness, decimal formatting) that the
    services rely on. */
module Results {

  datatype Option<+T> = None | Some(value: T) {
    /** `x ?? default` */
    function GetOr(default: T): T {
      if Some? then value else default
    }
  }

  /** The exceptions thrown by guards, strategies and services, by the HTTP
      status Nest answers with: UnauthorizedException (401),
      ForbiddenException (403), NotFoundException (404), ConflictException
      (409), and any other thrown value, a plain `Error`, a `TypeError` or a
      database error (500). */
  datatype Error =
    | Unauthorized(message: string)
    | Forbidden(message: string)
    | NotFound(message: string)
    | Conflict(message: string)
    | Internal(message: string)

  datatype Result<+T> = Ok(value: T) | Err(error: Error)

  /** A JavaScript number as unary `+` produces it from a string: an
      integer, or NaN. */
  datatype JsNumber = Finite(n: int) | NaN {
    /** `if (x)` on a number: false for 0 and NaN. */
    predicate Truthy() {
      Finite? && n != 0
    }
  }

  /** `if (x)` on an optional number field of a request body. */
  predicate TruthyId(x: Option<int>) {
    x.Some? && x.value != 0
  }

  /** `if (x)` on an optional string field of a request body. */
  predicate TruthyString(x: Option<string>) {
    x.Some? && x.value != ""
  }

  predicate StartsWith(s: string, prefix: string) {
    |prefix| <= |s| && s[..|prefix|] == prefix
  }

  predicate IsDigit(c: char) {
    '0' <= c <= '9'
  }

  predicate AllDigits(s: string) {
    forall i :: 0 <= i < |s| ==> IsDigit(s[i])
  }

  function DigitChar(d: int): (c: char)
    requires 0 <= d < 10
    ensures IsDigit(c) && c as int - '0' as int == d
  {
    ('0' as int + d) as char
  }

  /** Decimal text of a natural number, as a template literal prints it. */
  function NatToString(n: nat): (s: string)
    ensures |s| > 0 && AllDigits(s)
    ensures n >= 10 ==> s[0] != '0'
  {
    if n < 10 then [DigitChar(n)]
    else NatToString(n / 10) + [DigitChar(n % 10)]
  }

  /** Decimal text of an integer, as `${id}` prints it. */
  function IntToString(i: int): (s: string)
    ensures |s| > 0
    ensures i < 0 <==> s[0] == '-'
  {
    if i < 0 then "-" + NatToString(-i) else NatToString(i)
  }
}

=== FILE: role_seed.dfy ===
/** The role fixture and `seedRoles` (backend/src/database/seed-roles.ts):
    three roles, each inserted only when no role of that name exists. */
module RoleSeed {
  import opened Results
  import opened Tables
  import opened Permissions
  import opened Schema

  const Crud: seq<string> := ["create", "read", "update", "delete"]

  const AdminPermissions: PermissionMap :=
    map["users" := Crud, "projects" := Crud, "tasks" := Crud]

  const EditorPermissions: PermissionMap :=
    map["projects" := ["create", "read", "update"], "tasks" := Crud]

  const ViewerPermissions: PermissionMap :=
    map["projects" := ["read"], "tasks" := ["read"]]

  const Admin: Role := Role("admin", AdminPermissions)
  const Editor: Role := Role("editor", EditorPermissions)
  const Viewer: Role := Role("viewer", ViewerPermissions)

  /** The fixture, in insertion order. */
  const SeedRoles: seq<Role> := [Admin, Editor, Viewer]

  /** The seeding loop over `pending`: insert a role unless its name is
      already taken. */
  function SeedFrom(roles: Table<Role>, pending: seq<Role>): (r: Table<Role>)
    requires roles.Valid() && UniqueRoleNames(roles)
    ensures r.Valid() && UniqueRoleNames(r)
    ensures roles.next <= r.next
    ensures forall id :: id in roles.rows ==> id in r.rows && r.rows[id] == roles.rows[id]
    ensures forall i :: 0 <= i < |pending| ==> HasRoleNamed(r, pending[i].name)
    ensures forall id :: id in r.rows && id !in roles.rows ==> r.rows[id] in pending
    decreases |pending|
  {
    if |pending| == 0 then roles
    else if HasRoleNamed(roles, pending[0].name) then SeedFrom(roles, pending[1..])
    else
      var (inserted, id) := Insert(roles, pending[0]);
      assert inserted.rows[id].name == pending[0].name;
      SeedFrom(inserted, pending[1..])
  }

  /** `seedRoles(dataSource)` */
  function SeedRolesInto(db: Db): (r: Db)
    requires Consistent(db)
    ensures Consistent(r)
    ensures r.users == db.users && r.projects == db.projects && r.tasks == db.tasks
    ensures forall id :: id in db.roles.rows ==> id in r.roles.rows && r.roles.rows[id] == db.roles.rows[id]
    ensures HasRoleNamed(r.roles, "admin") && HasRoleNamed(r.roles, "editor") && HasRoleNamed(r.roles, "viewer")
  {
    var roles := SeedFrom(db.roles, SeedRoles);
    assert HasRoleNamed(roles, SeedRoles[0].name) && HasRoleNamed(roles, SeedRoles[1].name)
        && HasRoleNamed(roles, SeedRoles[2].name);
    db.(roles := roles)
  }

  /** When every pending name is taken, the loop inserts nothing. */
  lemma {:induction false} SeedFromNoop(roles: Table<Role>, pending: seq<Role>)
    requires roles.Valid() && UniqueRoleNames(roles)
    requires forall i :: 0 <= i < |pending| ==> HasRoleNamed(roles, pending[i].name)
    ensures SeedFrom(roles, pending) == roles
    decreases |pending|
  {
    if |pending| > 0 {
      SeedFromNoop(roles, pending[1..]);
    }
  }

  /** Seeding twice leaves the same role table as seeding once. */
  lemma SeedRolesIdempotent(db: Db)
    requires Consistent(db)
    ensures SeedRolesInto(SeedRolesInto(db)) == SeedRolesInto(db)
  {
    var once := SeedRolesInto(db);
    assert forall i :: 0 <= i < |SeedRoles| ==> HasRoleNamed(once.roles, SeedRoles[i].name);
    SeedFromNoop(once.roles, SeedRoles);
  }

  /** On an empty role table the fixture lands on keys 1, 2 and 3 in
      insertion order, so the default role 3 of the services is "viewer"
      only because viewer is the third role seeded. */
  lemma FreshSeedKeys(db: Db)
    requires Consistent(db) && db.roles == Empty()
    ensures SeedRolesInto(db).roles.rows == map[1 := Admin, 2 := Editor, 3 := Viewer]
    ensures SeedRolesInto(db).roles.rows[DefaultRoleId].name == "viewer"
  {
    var t0: Table<Role> := Empty();
    assert !HasRoleNamed(t0, "admin");
    var t1 := Table(map[1 := Admin], 2);
    assert Insert(t0, Admin).0 == t1;
    assert !HasRoleNamed(t1, "editor") by {
      assert Admin.name != "editor";
    }
    var t2 := Table(map[1 := Admin, 2 := Editor], 3);
    assert Insert(t1, Editor).0 == t2;
    assert !HasRoleNamed(t2, "viewer") by {
      assert Admin.name != "viewer" && Editor.name != "viewer";
    }
    var t3 := Table(map[1 := Admin, 2 := Editor, 3 := Viewer], 4);
    assert Insert(t2, Viewer).0 == t3;
    assert SeedFrom(t2, [Viewer]) == t3 by {
      assert SeedFrom(t3, []) == t3;
    }
    assert SeedFrom(t1, [Editor, Viewer]) == t3 by {
      assert [Editor, Viewer][1..] == [Viewer];
    }
    assert SeedFrom(t0, SeedRoles) == t3 by {
      assert SeedRoles[1..] == [Editor, Viewer];
    }
  }

  /** What each seeded role may do, resource by resource: admin all four
      actions on users, projects and tasks; editor everything on tasks and
      all but delete on projects, nothing on users; viewer only reads
      projects and tasks. */
  lemma FixtureGrants(resource: string, action: string)
    requires action in Crud
    ensures Granted(AdminPermissions, Requirement(resource, action))
            <==> resource in {"users", "projects", "tasks"}
    ensures Granted(EditorPermissions, Requirement(resource, action))
            <==> resource == "tasks" || (resource == "projects" && action != "delete")
    ensures Granted(ViewerPermissions, Requirement(resource, action))
            <==> (resource == "projects" || resource == "tasks") && action == "read"
  {
  }
}

=== FILE: scenarios.dfy ===
/** The seeded roles at work: which CRUD calls each fixture role may make,
    a fresh installation (seed, register, log in), and calls made by
    principals holding the seeded roles. */
module Scenarios {
  import opened Results
  import opened Tables
  import opened Permissions
  import opened Schema
  import opened RoleSeed
  import opened UserSeed
  import opened Registry
  import opened Controllers
  import AuthService

  /** A decoded principal holding role `name` with its permissions. */
  function RolePrincipal(id: int, email: string, name: string, perms: PermissionMap): Option<Principal> {
    Some(Principal(id, email, Some(PrincipalRole(name, Some(perms)))))
  }

  lemma ActionIsCrud(c: Call)
    ensures RequiredPair(c).action in Crud
  {
  }

  /** The role matrix of the fixture over all fifteen CRUD calls: admin may
      make every call; editor every task call and every project call but
      delete, no user call; viewer only the four project and task reads. */
  lemma RoleMatrix(c: Call, id: int, email: string)
    ensures Allowed(RolePrincipal(id, email, "admin", AdminPermissions), c)
    ensures Allowed(RolePrincipal(id, email, "editor", EditorPermissions), c) <==>
      RequiredPair(c).resource == "tasks" || (RequiredPair(c).resource == "projects" && !c.RemoveProject?)
    ensures Allowed(RolePrincipal(id, email, "viewer", ViewerPermissions), c) <==>
      c.ListProjects? || c.GetProject? || c.ListTasks? || c.GetTask?
  {
    ActionIsCrud(c);
    FixtureGrants(RequiredPair(c).resource, RequiredPair(c).action);
  }

  /** A viewer's `POST /projects` is refused with 403 before the service
      runs, whatever the body, and the database stays as it was. */
  lemma ViewerCannotCreateProject(db: Db, h: Hasher, token: string, decode: Decoder,
                                  draft: ProjectService.ProjectDraft, id: int, email: string)
    requires Consistent(db)
    requires decode(token) == RolePrincipal(id, email, "viewer", ViewerPermissions)
    ensures Handle(db, h, Some(token), decode, CreateProject(draft)) == Err(Forbidden("Forbidden resource"))
  {
    RoleMatrix(CreateProject(draft), id, email);
  }

  /** An editor may not delete a project. */
  lemma EditorCannotRemoveProject(db: Db, h: Hasher, token: string, decode: Decoder, pid: int,
                                  id: int, email: string)
    requires Consistent(db)
    requires decode(token) == RolePrincipal(id, email, "editor", EditorPermissions)
    ensures Handle(db, h, Some(token), decode, RemoveProject(pid)) == Err(Forbidden("Forbidden resource"))
  {
    RoleMatrix(RemoveProject(pid), id, email);
  }

  /** An editor's task deletion reaches the service. */
  lemma EditorRemovesTask(db: Db, h: Hasher, token: string, decode: Decoder, tid: int,
                          id: int, email: string)
    requires Consistent(db)
    requires decode(token) == RolePrincipal(id, email, "editor", EditorPermissions)
    ensures Handle(db, h, Some(token), decode, RemoveTask(tid)) == Perform(db, h, decode(token).value, RemoveTask(tid))
  {
    RoleMatrix(RemoveTask(tid), id, email);
  }

  /** On a freshly seeded database, registering without a role makes a
      viewer: the answer names role 3, "viewer", and the token carries the
      viewer's permissions. */
  lemma FreshRegistrationIsViewer(h: Hasher, sign: AuthService.Signer)
    ensures var db := SeedRolesInto(EmptyDb());
            var r := AuthService.Register(db, h, sign, "a@x.com", "secret1", None);
            && r.Ok?
            && r.value.1.user.role == LoadedRole(3, "viewer", ViewerPermissions)
            && r.value.1.accessToken
               == sign(AuthService.Payload(r.value.1.user.id, "a@x.com", "viewer", ViewerPermissions))
  {
    var db := SeedRolesInto(EmptyDb());
    FreshSeedKeys(EmptyDb());
    assert !EmailTaken(db.users, "a@x.com");
    assert RoleIdOrDefault(None) == 3;
    var (after, resp) := AuthService.Register(db, h, sign, "a@x.com", "secret1", None).value;
    assert after.users.rows[resp.user.id].roleId == 3;
  }

  /** The rest of that scenario: logging in right after with the same
      credentials yields the registration's own answer, so the token's
      payload carries the viewer's permissions. */
  lemma FreshRegistrationThenLogin(h: Hasher, sign: AuthService.Signer)
    requires Sound(h)
    ensures var db := SeedRolesInto(EmptyDb());
            var r := AuthService.Register(db, h, sign, "a@x.com", "secret1", None);
            r.Ok? &&
            var login := LoginEndpoint(r.value.0, h, sign, "a@x.com", "secret1");
            && login.Ok?
            && login.value.accessToken
               == sign(AuthService.Payload(login.value.user.id, "a@x.com", "viewer", ViewerPermissions))
  {
    FreshRegistrationIsViewer(h, sign);
    var db := SeedRolesInto(EmptyDb());
    assert !StartsWith("secret1", HashPrefix) by {
      assert "secret1"[..4][0] != HashPrefix[0];
    }
    AuthService.RegisterThenLogin(db, h, sign, "a@x.com", "secret1", None);
  }

  /** Registration takes the role key from the request body unchecked:
      any stored role can be asked for, and the answer and the token carry
      that role. */
  lemma RegistrationChoosesRole(db: Db, h: Hasher, sign: AuthService.Signer, email: string,
                                password: string, k: int)
    requires Consistent(db) && !EmailTaken(db.users, email)
    requires k != 0 && k in db.roles.rows
    ensures var r := AuthService.Register(db, h, sign, email, password, Some(k));
            && r.Ok?
            && r.value.1.user.role == LoadedRole(k, db.roles.rows[k].name, db.roles.rows[k].permissions)
            && r.value.1.accessToken
               == sign(AuthService.Payload(r.value.1.user.id, email, db.roles.rows[k].name,
                                           db.roles.rows[k].permissions))
  {
    var (after, resp) := AuthService.Register(db, h, sign, email, password, Some(k)).value;
    assert after.users.rows[resp.user.id].roleId == k;
  }

  /** On a freshly seeded database, anyone may register as admin by naming
      role key 1. */
  lemma SelfRegisteredAdmin(h: Hasher, sign: AuthService.Signer)
    ensures var r := AuthService.Register(SeedRolesInto(EmptyDb()), h, sign, "a@x.com", "secret1", Some(1));
            && r.Ok?
            && r.value.1.user.role == LoadedRole(1, "admin", AdminPermissions)
  {
    FreshSeedKeys(EmptyDb());
    RegistrationChoosesRole(SeedRolesInto(EmptyDb()), h, sign, "a@x.com", "secret1", 1);
  }

  /** Seeding an empty database stores the admin under role key 1 with the
      digest of its fixture password. */
  lemma SeededAdminRow(h: Hasher)
    ensures var roles := SeedRolesInto(EmptyDb());
            SeedUsersInto(roles, h).Ok? &&
            var db := SeedUsersInto(roles, h).value;
            && 1 in db.roles.rows && db.roles.rows[1] == Admin
            && UserWithEmail(db.users, "admin@test.com").Some?
            && db.users.rows[UserWithEmail(db.users, "admin@test.com").value]
               == User("admin@test.com", HashPassword(h, "admin123"), 1)
  {
    var roles := SeedRolesInto(EmptyDb());
    FreshSeedKeys(EmptyDb());
    assert RoleNamed(roles.roles, "admin").value == 1;
    assert !EmailTaken(roles.users, SeedEmails[0]);
    SeedUserBoundToRole(roles, h, 0);
  }

  /** A stored admin row with a digest of "admin123" logs in with that
      password, and the token carries the admin role. */
  lemma AdminLogsIn(db: Db, h: Hasher, sign: AuthService.Signer)
    requires Consistent(db) && Sound(h)
    requires 1 in db.roles.rows && db.roles.rows[1] == Admin
    requires UserWithEmail(db.users, "admin@test.com").Some?
    requires db.users.rows[UserWithEmail(db.users, "admin@test.com").value]
             == User("admin@test.com", HashPassword(h, "admin123"), 1)
    ensures var r := LoginEndpoint(db, h, sign, "admin@test.com", "admin123");
            && r.Ok?
            && r.value.accessToken
               == sign(AuthService.Payload(r.value.user.id, "admin@test.com", "admin", AdminPermissions))
  {
    var id := UserWithEmail(db.users, "admin@test.com").value;
    assert !StartsWith("admin123", HashPrefix) by {
      assert "admin123"[..4][0] != HashPrefix[0];
    }
    ValidatesAfterHook(h, "admin123");
    assert ValidatePassword(h, db.users.rows[id].password, "admin123");
  }

  /** After seeding roles and users on an empty database, the admin logs in
      with the fixture password and its token carries the admin role. */
  lemma SeededAdminLogsIn(h: Hasher, sign: AuthService.Signer)
    requires Sound(h)
    ensures var roles := SeedRolesInto(EmptyDb());
            SeedUsersInto(roles, h).Ok? &&
            var db := SeedUsersInto(roles, h).value;
            var r := LoginEndpoint(db, h, sign, "admin@test.com", "admin123");
            && r.Ok?
            && r.value.accessToken
               == sign(AuthService.Payload(r.value.user.id, "admin@test.com", "admin", AdminPermissions))
  {
    SeededAdminRow(h);
    AdminLogsIn(SeedUsersInto(SeedRolesInto(EmptyDb()), h).value, h, sign);
  }
}

=== FILE: schema.dfy ===
/** The entities (the files under backend/src/entities) as table rows, the database
    they live in, the integrity constraints the column declarations impose
    on it, and the password hook of the User entity. */
module Schema {
  import opened Results
  import opened Tables
  import opened Permissions

  // ---------------------------------------------------------------------
  // Password hashing (user.entity.ts)
  // ---------------------------------------------------------------------

  /** The marker every bcrypt digest starts with. */
  const HashPrefix: string := "$2b$"

  /** bcrypt as the entity uses it: `hash(plain)` (salt and cost factor
      included) and `compare(plain, digest)`. */
  datatype Hasher = Hasher(hash: string -> string, compare: (string, string) -> bool)

  /** What the model assumes of bcrypt: every digest carries the marker,
      and a plaintext compares equal to its own digest. */
  ghost predicate Sound(h: Hasher) {
    forall p :: StartsWith(h.hash(p), HashPrefix) && h.compare(p, h.hash(p))
  }

  /** The `@BeforeInsert`/`@BeforeUpdate` hook: a non-empty password
      without the marker is replaced by its digest; anything else is kept. */
  function HashPassword(h: Hasher, password: string): (r: string)
    ensures r == password || r == h.hash(password)
    ensures password == "" || StartsWith(password, HashPrefix) ==> r == password
    ensures Sound(h) && password != "" ==> StartsWith(r, HashPrefix)
  {
    if password != "" && !StartsWith(password, HashPrefix) then h.hash(password) else password
  }

  /** `user.validatePassword(candidate)` */
  function ValidatePassword(h: Hasher, stored: string, candidate: string): (ok: bool)
    ensures Sound(h) && stored == h.hash(candidate) ==> ok
  {
    h.compare(candidate, stored)
  }

  /** After the hook a non-empty password always carries the marker. */
  lemma HashedPasswordHasMarker(h: Hasher, password: string)
    requires Sound(h)
    ensures password != "" ==> StartsWith(HashPassword(h, password), HashPrefix)
    ensures password == "" ==> HashPassword(h, password) == ""
  {
  }

  /** Running the hook on its own output changes nothing, so saving a row
      again never hashes a digest. */
  lemma HashPasswordIdempotent(h: Hasher, password: string)
    requires Sound(h)
    ensures HashPassword(h, HashPassword(h, password)) == HashPassword(h, password)
  {
  }

  /** The password a row was saved with validates against the stored value,
      unless it already looked like a digest. */
  lemma ValidatesAfterHook(h: Hasher, password: string)
    requires Sound(h)
    requires password != "" && !StartsWith(password, HashPrefix)
    ensures ValidatePassword(h, HashPassword(h, password), password)
  {
  }

  // ---------------------------------------------------------------------
  // Rows and the database
  // ---------------------------------------------------------------------

  /** role.entity.ts: `name` is unique; `permissions` is a JSON object. */
  datatype Role = Role(name: string, permissions: PermissionMap)

  /** user.entity.ts: `email` is unique; `password` holds the hook's output;
      `roleId` references a role. */
  datatype User = User(email: string, password: string, roleId: int)

  /** project.entity.ts: `createdById` references a user. */
  datatype Project = Project(name: string, description: Option<string>, createdById: int)

  /** task.entity.ts: `projectId` references a project, ON DELETE CASCADE. */
  datatype Task = Task(title: string, completed: bool, projectId: int)

  datatype Db = Db(roles: Table<Role>, users: Table<User>, projects: Table<Project>, tasks: Table<Task>)

  function EmptyDb(): (db: Db)
    ensures Consistent(db)
  {
    Db(Empty(), Empty(), Empty(), Empty())
  }

  /** A row saved with `roleId || 3` (user.service.ts, auth.service.ts)
      gets role 3 when the body names none or names 0. */
  const DefaultRoleId: int := 3

  function RoleIdOrDefault(roleId: Option<int>): (r: int)
    ensures TruthyId(roleId) ==> r == roleId.value
    ensures !TruthyId(roleId) ==> r == DefaultRoleId
  {
    if TruthyId(roleId) then roleId.value else DefaultRoleId
  }

  predicate HasRoleNamed(roles: Table<Role>, name: string) {
    exists id :: id in roles.rows && roles.rows[id].name == name
  }

  predicate EmailTaken(users: Table<User>, email: string) {
    exists id :: id in users.rows && users.rows[id].email == email
  }

  predicate UniqueRoleNames(roles: Table<Role>) {
    forall i, j :: i in roles.rows && j in roles.rows && roles.rows[i].name == roles.rows[j].name ==> i == j
  }

  predicate UniqueEmails(users: Table<User>) {
    forall i, j :: i in users.rows && j in users.rows && users.rows[i].email == users.rows[j].email ==> i == j
  }

  /** The state the column declarations keep the database in: serial keys,
      unique role names and emails, and every foreign key resolving. */
  predicate Consistent(db: Db) {
    && db.roles.Valid() && db.users.Valid() && db.projects.Valid() && db.tasks.Valid()
    && UniqueRoleNames(db.roles)
    && UniqueEmails(db.users)
    && (forall id :: id in db.users.rows ==> db.users.rows[id].roleId in db.roles.rows)
    && (forall id :: id in db.projects.rows ==> db.projects.rows[id].createdById in db.users.rows)
    && (forall id :: id in db.tasks.rows ==> db.tasks.rows[id].projectId in db.projects.rows)
  }

  /** `findOne({ where: { email } })` */
  function UserWithEmail(users: Table<User>, email: string): (r: Option<int>)
    requires users.Valid()
    ensures r.Some? <==> EmailTaken(users, email)
    ensures r.Some? ==> r.value in users.rows && users.rows[r.value].email == email
  {
    Find(users, (u: User) => u.email == email)
  }

  /** `findOne({ where: { name } })` */
  function RoleNamed(roles: Table<Role>, name: string): (r: Option<int>)
    requires roles.Valid()
    ensures r.Some? <==> HasRoleNamed(roles, name)
    ensures r.Some? ==> r.value in roles.rows && roles.rows[r.value].name == name
  {
    Find(roles, (r: Role) => r.name == name)
  }

  /** A role loaded by the `role` relation, key included. */
  datatype LoadedRole = LoadedRole(id: int, name: string, permissions: PermissionMap)

  function RoleById(roles: Table<Role>, id: int): (r: Option<LoadedRole>)
    ensures r.Some? <==> id in roles.rows
    ensures r.Some? ==> r.value.id == id && r.value.name == roles.rows[id].name
                        && r.value.permissions == roles.rows[id].permissions
  {
    if id in roles.rows then Some(LoadedRole(id, roles.rows[id].name, roles.rows[id].permissions)) else None
  }

  // ---------------------------------------------------------------------
  // Saving a user row: the hook, then the constraints
  // ---------------------------------------------------------------------

  /** A Postgres `integer` (int4): the type of every key column. */
  predicate InInt4(n: int) {
    -0x8000_0000 <= n < 0x8000_0000
  }

  const OutOfRange: string := "out of range for type integer"
  const UniqueViolation: string := "duplicate key value violates unique constraint"
  const ForeignKeyViolation: string := "violates foreign key constraint"

  /** Storing `u` under key `id` breaks neither the unique email nor the
      role foreign key. */
  predicate UserRowAllowed(db: Db, id: int, u: User) {
    && u.roleId in db.roles.rows
    && forall other :: other in db.users.rows && other != id ==> db.users.rows[other].email != u.email
  }

  function Hooked(h: Hasher, u: User): User {
    u.(password := HashPassword(h, u.password))
  }

  /** `userRepository.save(entity)` of a new row. */
  function InsertUser(db: Db, h: Hasher, u: User): (r: Result<(Db, int)>)
    requires Consistent(db)
    ensures r.Ok? <==> UserRowAllowed(db, db.users.next, u)
    ensures r.Err? ==> r.error.Internal?
    ensures r.Ok? ==>
      && Consistent(r.value.0)
      && r.value.1 !in db.users.rows
      && r.value.1 == db.users.next && r.value.0.users.next == db.users.next + 1
      && r.value.0 == db.(users := Table(db.users.rows[r.value.1 := Hooked(h, u)], r.value.0.users.next))
  {
    if u.roleId !in db.roles.rows then Err(Internal(ForeignKeyViolation))
    else if !UserRowAllowed(db, db.users.next, u) then Err(Internal(UniqueViolation))
    else
      var (users, id) := Insert(db.users, Hooked(h, u));
      Ok((db.(users := users), id))
  }

  /** `userRepository.save(entity)` of an existing row. */
  function ReplaceUser(db: Db, h: Hasher, id: int, u: User): (r: Result<Db>)
    requires Consistent(db) && id in db.users.rows
    ensures r.Ok? <==> UserRowAllowed(db, id, u)
    ensures r.Err? ==> r.error.Internal?
    ensures r.Ok? ==>
      && Consistent(r.value)
      && r.value == db.(users := Table(db.users.rows[id := Hooked(h, u)], db.users.next))
  {
    if u.roleId !in db.roles.rows then Err(Internal(ForeignKeyViolation))
    else if !UserRowAllowed(db, id, u) then Err(Internal(UniqueViolation))
    else Ok(db.(users := Put(db.users, id, Hooked(h, u))))
  }
}

=== FILE: tables.dfy ===
/** A database table whose primary key is a serial column
    (`@PrimaryGeneratedColumn()`): keys are handed out from `next`, the
    first one is 1, and a key is never handed out twice, even after its row
    has been removed. */
module Tables {
  import opened Results

  datatype Table<T> = Table(rows: map<int, T>, next: int) {
    predicate Valid() {
      1 <= next && forall id :: id in rows ==> 1 <= id < next
    }
  }

  function Empty<T>(): (t: Table<T>)
    ensures t.Valid() && t.rows == map[]
  {
    Table(map[], 1)
  }

  /** Inserts `row` under the next serial key. */
  function Insert<T>(t: Table<T>, row: T): (r: (Table<T>, int))
    requires t.Valid()
    ensures r.0.Valid()
    ensures r.1 == t.next && r.0.next == t.next + 1
    ensures r.1 !in t.rows && r.0.rows == t.rows[r.1 := row]
  {
    (Table(t.rows[t.next := row], t.next + 1), t.next)
  }

  /** Overwrites the row stored under an existing key. */
  function Put<T>(t: Table<T>, id: int, row: T): (r: Table<T>)
    requires t.Valid() && id in t.rows
    ensures r.Valid() && r.rows.Keys == t.rows.Keys
    ensures r.rows == t.rows[id := row] && r.next == t.next
  {
    Table(t.rows[id := row], t.next)
  }

  /** Deletes the row stored under `id`; its key is not reused. */
  function Delete<T>(t: Table<T>, id: int): (r: Table<T>)
    requires t.Valid()
    ensures r.Valid() && r.rows.Keys == t.rows.Keys - {id}
    ensures r.rows == t.rows - {id} && r.next == t.next
  {
    Table(t.rows - {id}, t.next)
  }

  /** `findOne({ where })`: the first row, in key order from `from` on,
      that `matches`. */
  function FindFirst<T>(t: Table<T>, matches: T -> bool, from: int): (r: Option<int>)
    requires t.Valid()
    ensures r.Some? ==> r.value in t.rows && from <= r.value && matches(t.rows[r.value])
    ensures r.Some? ==> forall id :: id in t.rows && from <= id < r.value ==> !matches(t.rows[id])
    ensures r.None? ==> forall id :: id in t.rows && from <= id ==> !matches(t.rows[id])
    decreases t.next - from
  {
    if from >= t.next then None
    else if from in t.rows && matches(t.rows[from]) then Some(from)
    else FindFirst(t, matches, from + 1)
  }

  function Find<T>(t: Table<T>, matches: T -> bool): (r: Option<int>)
    requires t.Valid()
    ensures r.Some? <==> exists id :: id in t.rows && matches(t.rows[id])
    ensures r.Some? ==> r.value in t.rows && matches(t.rows[r.value])
    ensures r.Some? ==> forall id :: id in t.rows && matches(t.rows[id]) ==> r.value <= id
  {
    FindFirst(t, matches, 1)
  }
}

=== FILE: task_service.dfy ===
/** `TaskService` (backend/src/services/task.service.ts). */
module TaskService {
  import opened Results
  import opened Tables
  import opened Schema

  /** CreateTaskDto */
  datatype TaskDraft = TaskDraft(title: string, projectId: int, completed: Option<bool>)

  /** UpdateTaskDto: CreateTaskDto without `projectId`, every field optional. */
  datatype TaskPatch = TaskPatch(title: Option<string>, completed: Option<bool>)

  function ProjectNotFound(id: int): Error {
    NotFound("Project #" + IntToString(id) + " not found")
  }

  function TaskNotFound(id: int): Error {
    NotFound("Task #" + IntToString(id) + " not found")
  }

  /** `create(createTaskDto)`: the project must exist; `completed`
      defaults to false (the column default). */
  function Create(db: Db, draft: TaskDraft): (r: Result<(Db, int)>)
    requires Consistent(db)
    ensures r.Ok? <==> draft.projectId in db.projects.rows
    ensures r.Err? ==> r.error == ProjectNotFound(draft.projectId)
    ensures r.Ok? ==>
      var (after, id) := r.value;
      && Consistent(after)
      && id !in db.tasks.rows
      && id == db.tasks.next && after.tasks.next == db.tasks.next + 1
      && after.tasks.rows == db.tasks.rows[id := Task(draft.title, draft.completed.GetOr(false), draft.projectId)]
      && after.roles == db.roles && after.users == db.users && after.projects == db.projects
  {
    if draft.projectId !in db.projects.rows then Err(ProjectNotFound(draft.projectId))
    else
      var (tasks, id) := Insert(db.tasks, Task(draft.title, draft.completed.GetOr(false), draft.projectId));
      Ok((db.(tasks := tasks), id))
  }

  /** The filter `findAll` hands to the query: a truthy number. */
  predicate Filters(projectId: Option<JsNumber>) {
    projectId.Some? && projectId.value.Truthy()
  }

  /** `findAll(projectId?)`: filtered only when the number is truthy, so
      0 and NaN list every task; Postgres refuses a filter value outside the
      range of the `integer` key column. */
  function FindAll(db: Db, projectId: Option<JsNumber>): (r: Result<map<int, Task>>)
    ensures r.Err? <==> Filters(projectId) && !InInt4(projectId.value.n)
    ensures r.Err? ==> r.error == Internal(OutOfRange)
    ensures r.Ok? ==> forall t :: t in r.value ==> t in db.tasks.rows && r.value[t] == db.tasks.rows[t]
    ensures r.Ok? && Filters(projectId) ==>
      forall t :: t in db.tasks.rows ==> (t in r.value <==> db.tasks.rows[t].projectId == projectId.value.n)
    ensures !Filters(projectId) ==> r == Ok(db.tasks.rows)
  {
    if !Filters(projectId) then Ok(db.tasks.rows)
    else if !InInt4(projectId.value.n) then Err(Internal(OutOfRange))
    else Ok(map t | t in db.tasks.rows && db.tasks.rows[t].projectId == projectId.value.n :: db.tasks.rows[t])
  }

  /** `findOne(id)` */
  function FindOne(db: Db, id: int): (r: Result<Task>)
    ensures r.Ok? <==> id in db.tasks.rows
    ensures r.Ok? ==> r.value == db.tasks.rows[id]
    ensures r.Err? ==> r.error == TaskNotFound(id)
  {
    if id in db.tasks.rows then Ok(db.tasks.rows[id]) else Err(TaskNotFound(id))
  }

  /** `Object.assign(task, updateTaskDto)` */
  function Merge(t: Task, patch: TaskPatch): (r: Task)
    ensures r.projectId == t.projectId
    ensures r.title == (if patch.title.Some? then patch.title.value else t.title)
    ensures r.completed == (if patch.completed.Some? then patch.completed.value else t.completed)
  {
    Task(patch.title.GetOr(t.title), patch.completed.GetOr(t.completed), t.projectId)
  }

  /** `update(id, updateTaskDto)`: a task never moves to another project. */
  function Update(db: Db, id: int, patch: TaskPatch): (r: Result<(Db, Task)>)
    requires Consistent(db)
    ensures r.Ok? <==> id in db.tasks.rows
    ensures r.Err? ==> r.error == TaskNotFound(id)
    ensures r.Ok? ==>
      var (after, saved) := r.value;
      && Consistent(after)
      && saved == Merge(db.tasks.rows[id], patch)
      && saved.projectId == db.tasks.rows[id].projectId
      && after.tasks.rows == db.tasks.rows[id := saved] && after.tasks.next == db.tasks.next
      && after.roles == db.roles && after.users == db.users && after.projects == db.projects
  {
    match FindOne(db, id)
    case Err(e) => Err(e)
    case Ok(t) =>
      var saved := Merge(t, patch);
      Ok((db.(tasks := Put(db.tasks, id, saved)), saved))
  }

  /** `remove(id)` */
  function Remove(db: Db, id: int): (r: Result<(Db, Task)>)
    requires Consistent(db)
    ensures r.Ok? <==> id in db.tasks.rows
    ensures r.Err? ==> r.error == TaskNotFound(id)
    ensures r.Ok? ==>
      var (after, removed) := r.value;
      && Consistent(after)
      && removed == db.tasks.rows[id]
      && after.tasks.rows == db.tasks.rows - {id} && after.tasks.next == db.tasks.next
      && after.roles == db.roles && after.users == db.users && after.projects == db.projects
  {
    match FindOne(db, id)
    case Err(e) => Err(e)
    case Ok(t) => Ok((db.(tasks := Delete(db.tasks, id)), t))
  }
}

=== FILE: user_seed.dfy ===
/** `seedUsers` (backend/src/database/seed-users.ts): one user per seeded
    role, each inserted only when its email is still free. */
module UserSeed {
  import opened Results
  import opened Tables
  import opened Schema

  const RolesMissing: string := "Required roles not found. Make sure roles are seeded first."

  /** The fixture, user by user: email, plaintext password, and the name
      of the role it is bound to. */
  const SeedEmails: seq<string> := ["admin@test.com", "editor@test.com", "viewer@test.com"]
  const SeedPasswords: seq<string> := ["admin123", "editor123", "viewer123"]
  const SeedRoleNames: seq<string> := ["admin", "editor", "viewer"]

  /** The three seed users, bound to the keys the role lookups found. */
  function SeedUsersFor(adminId: int, editorId: int, viewerId: int): seq<User> {
    [ User("admin@test.com", "admin123", adminId),
      User("editor@test.com", "editor123", editorId),
      User("viewer@test.com", "viewer123", viewerId) ]
  }

  /** The rows as the hash hook stores them. */
  function HookedAll(h: Hasher, pending: seq<User>): (r: seq<User>)
    ensures |r| == |pending|
  {
    if |pending| == 0 then [] else [Hooked(h, pending[0])] + HookedAll(h, pending[1..])
  }

  /** What the insertion loop over `pending` leaves in `r`, starting from
      `db`: the other tables untouched, every existing user kept as is,
      every pending email taken, and every new row the hook's image of a
      pending row. */
  ghost predicate Grew(db: Db, r: Db, h: Hasher, pending: seq<User>) {
    && r.roles == db.roles && r.projects == db.projects && r.tasks == db.tasks
    && (forall id :: id in db.users.rows ==> id in r.users.rows && r.users.rows[id] == db.users.rows[id])
    && (forall i :: 0 <= i < |pending| ==> EmailTaken(r.users, pending[i].email))
    && (forall id :: id in r.users.rows && id !in db.users.rows ==> r.users.rows[id] in HookedAll(h, pending))
  }

  /** A skipped row: what the rest of the loop grew covers the whole of
      `pending`, since the skipped email was already taken. */
  lemma GrewAfterSkip(db: Db, r: Db, h: Hasher, pending: seq<User>)
    requires |pending| > 0 && EmailTaken(db.users, pending[0].email)
    requires Grew(db, r, h, pending[1..])
    ensures Grew(db, r, h, pending)
  {
    assert forall i :: 1 <= i < |pending| ==> pending[i] == pending[1..][i - 1];
    var id :| id in db.users.rows && db.users.rows[id].email == pending[0].email;
    assert id in r.users.rows && r.users.rows[id].email == pending[0].email;
    assert HookedAll(h, pending) == [Hooked(h, pending[0])] + HookedAll(h, pending[1..]);
  }

  /** An inserted row: the row saved under `id` and what the rest of the
      loop grew from there cover the whole of `pending`. */
  lemma GrewAfterInsert(db: Db, next: Db, id: int, r: Db, h: Hasher, pending: seq<User>)
    requires |pending| > 0 && id !in db.users.rows
    requires next == db.(users := Table(db.users.rows[id := Hooked(h, pending[0])], next.users.next))
    requires Grew(next, r, h, pending[1..])
    ensures Grew(db, r, h, pending)
  {
    assert forall i :: 1 <= i < |pending| ==> pending[i] == pending[1..][i - 1];
    assert id in r.users.rows && r.users.rows[id] == Hooked(h, pending[0]);
    assert EmailTaken(r.users, pending[0].email);
    assert HookedAll(h, pending) == [Hooked(h, pending[0])] + HookedAll(h, pending[1..]);
  }

  /** The insertion loop: a row is saved (through the hash hook) unless a
      user with its email exists. */
  function InsertMissing(db: Db, h: Hasher, pending: seq<User>): (r: Db)
    requires Consistent(db)
    requires forall i :: 0 <= i < |pending| ==> pending[i].roleId in db.roles.rows
    ensures Consistent(r)
    ensures Grew(db, r, h, pending)
    decreases |pending|
  {
    if |pending| == 0 then db
    else if EmailTaken(db.users, pending[0].email) then
      var r := InsertMissing(db, h, pending[1..]);
      GrewAfterSkip(db, r, h, pending);
      r
    else
      var (next, id) := InsertUser(db, h, pending[0]).value;
      var r := InsertMissing(next, h, pending[1..]);
      GrewAfterInsert(db, next, id, r, h, pending);
      r
  }

  /** The seed rows for a role table holding all three seeded roles. */
  function Pending(roles: Table<Role>): (r: seq<User>)
    requires roles.Valid()
    requires HasRoleNamed(roles, "admin") && HasRoleNamed(roles, "editor") && HasRoleNamed(roles, "viewer")
    ensures |r| == 3 && forall i :: 0 <= i < 3 ==> r[i].roleId in roles.rows
    ensures forall k :: 0 <= k < 3 ==>
      r[k] == User(SeedEmails[k], SeedPasswords[k], RoleNamed(roles, SeedRoleNames[k]).value)
  {
    SeedUsersFor(RoleNamed(roles, "admin").value, RoleNamed(roles, "editor").value, RoleNamed(roles, "viewer").value)
  }

  /** `seedUsers(dataSource)` */
  function SeedUsersInto(db: Db, h: Hasher): (r: Result<Db>)
    requires Consistent(db)
    ensures r.Err? <==> !(HasRoleNamed(db.roles, "admin") && HasRoleNamed(db.roles, "editor") && HasRoleNamed(db.roles, "viewer"))
    ensures r.Err? ==> r.error == Internal(RolesMissing)
    ensures r.Ok? ==> r.value == InsertMissing(db, h, Pending(db.roles))
    ensures r.Ok? ==>
      && Consistent(r.value)
      && r.value.roles == db.roles && r.value.projects == db.projects && r.value.tasks == db.tasks
      && (forall id :: id in db.users.rows ==> id in r.value.users.rows && r.value.users.rows[id] == db.users.rows[id])
      && (forall k :: 0 <= k < 3 ==> EmailTaken(r.value.users, SeedEmails[k]))
  {
    if !(HasRoleNamed(db.roles, "admin") && HasRoleNamed(db.roles, "editor") && HasRoleNamed(db.roles, "viewer"))
    then Err(Internal(RolesMissing))
    else
      var pending := Pending(db.roles);
      var r := InsertMissing(db, h, pending);
      Ok(r)
  }

  /** When every pending email is taken, the loop inserts nothing. */
  lemma {:induction false} InsertMissingNoop(db: Db, h: Hasher, pending: seq<User>)
    requires Consistent(db)
    requires forall i :: 0 <= i < |pending| ==> pending[i].roleId in db.roles.rows
    requires forall i :: 0 <= i < |pending| ==> EmailTaken(db.users, pending[i].email)
    ensures InsertMissing(db, h, pending) == db
    decreases |pending|
  {
    if |pending| > 0 {
      InsertMissingNoop(db, h, pending[1..]);
    }
  }

  /** Seeding users twice equals seeding them once. */
  lemma SeedUsersIdempotent(db: Db, h: Hasher)
    requires Consistent(db)
    requires HasRoleNamed(db.roles, "admin") && HasRoleNamed(db.roles, "editor") && HasRoleNamed(db.roles, "viewer")
    ensures SeedUsersInto(SeedUsersInto(db, h).value, h) == SeedUsersInto(db, h)
  {
    var once := SeedUsersInto(db, h).value;
    var pending := Pending(db.roles);
    assert Pending(once.roles) == pending;
    assert forall i :: 0 <= i < |pending| ==> EmailTaken(once.users, pending[i].email);
    InsertMissingNoop(once, h, pending);
  }

  /** Every hooked row is the hook of some pending row. */
  lemma {:induction false} HookedAllIndex(h: Hasher, pending: seq<User>, u: User)
    requires u in HookedAll(h, pending)
    ensures exists i :: 0 <= i < |pending| && u == Hooked(h, pending[i])
    decreases |pending|
  {
    if u != Hooked(h, pending[0]) {
      HookedAllIndex(h, pending[1..], u);
      var j :| 0 <= j < |pending[1..]| && u == Hooked(h, pending[1..][j]);
      assert pending[1..][j] == pending[j + 1];
    }
  }

  /** A pending row whose email was free, among rows with distinct emails,
      ends up stored as is, through the hash hook. */
  lemma InsertMissingStoresRow(db: Db, h: Hasher, pending: seq<User>, k: int)
    requires Consistent(db)
    requires forall i :: 0 <= i < |pending| ==> pending[i].roleId in db.roles.rows
    requires forall i, j :: 0 <= i < j < |pending| ==> pending[i].email != pending[j].email
    requires 0 <= k < |pending| && !EmailTaken(db.users, pending[k].email)
    ensures var after := InsertMissing(db, h, pending).users;
            var id := UserWithEmail(after, pending[k].email).value;
            id !in db.users.rows && after.rows[id] == Hooked(h, pending[k])
  {
    var after := InsertMissing(db, h, pending).users;
    var id := UserWithEmail(after, pending[k].email).value;
    HookedAllIndex(h, pending, after.rows[id]);
    var i :| 0 <= i < |pending| && after.rows[id] == Hooked(h, pending[i]);
    assert pending[i].email == pending[k].email;
  }

  /** The seed users have three distinct emails. */
  lemma PendingDistinct(roles: Table<Role>)
    requires roles.Valid()
    requires HasRoleNamed(roles, "admin") && HasRoleNamed(roles, "editor") && HasRoleNamed(roles, "viewer")
    ensures forall i, j :: 0 <= i < j < 3 ==> Pending(roles)[i].email != Pending(roles)[j].email
  {
  }

  /** A seed user whose email was free is stored with the key of the role
      of the matching name (admin, editor, viewer in that order), and with
      its password through the hash hook. */
  lemma SeedUserBoundToRole(db: Db, h: Hasher, k: int)
    requires Consistent(db) && 0 <= k < 3
    requires HasRoleNamed(db.roles, "admin") && HasRoleNamed(db.roles, "editor") && HasRoleNamed(db.roles, "viewer")
    requires !EmailTaken(db.users, SeedEmails[k])
    ensures var after := SeedUsersInto(db, h).value.users;
            var id := UserWithEmail(after, SeedEmails[k]).value;
            && id !in db.users.rows
            && after.rows[id] == User(SeedEmails[k], HashPassword(h, SeedPasswords[k]),
                                      RoleNamed(db.roles, SeedRoleNames[k]).value)
  {
    var pending := Pending(db.roles);
    PendingDistinct(db.roles);
    InsertMissingStoresRow(db, h, pending, k);
  }
}

=== FILE: user_service.dfy ===
/** `UserService` (backend/src/services/user.service.ts): the users table
    behind `/users`, with explicit NotFound and Conflict results and every
    answer stripped of the password. */
module UserService {
  import opened Results
  import opened Tables
  import opened Schema

  /** CreateUserDto */
  datatype NewUser = NewUser(email: string, password: string, roleId: Option<int>)

  /** UpdateUserDto: every field optional. */
  datatype UserPatch = UserPatch(email: Option<string>, password: Option<string>, roleId: Option<int>)

  /** The saved row without its password: what `create` and `update` answer. */
  datatype PublicUser = PublicUser(id: int, email: string, roleId: int)

  /** What `findAll` and `findOne` select: key, email and the joined role. */
  datatype UserSummary = UserSummary(id: int, email: string, role: Option<LoadedRole>)

  function Stripped(id: int, u: User): PublicUser {
    PublicUser(id, u.email, u.roleId)
  }

  function Summary(db: Db, id: int): UserSummary
    requires id in db.users.rows
  {
    UserSummary(id, db.users.rows[id].email, RoleById(db.roles, db.users.rows[id].roleId))
  }

  function RoleNotFound(id: int): Error {
    NotFound("Role #" + IntToString(id) + " not found")
  }

  function UserNotFound(id: int): Error {
    NotFound("User #" + IntToString(id) + " not found")
  }

  /** `create(createUserDto)` */
  function Create(db: Db, h: Hasher, dto: NewUser): (r: Result<(Db, PublicUser)>)
    requires Consistent(db)
    ensures EmailTaken(db.users, dto.email) ==> r == Err(Conflict("User already exists"))
    ensures !EmailTaken(db.users, dto.email) && TruthyId(dto.roleId) && dto.roleId.value !in db.roles.rows
            ==> r == Err(RoleNotFound(dto.roleId.value))
    ensures !EmailTaken(db.users, dto.email) && !(TruthyId(dto.roleId) && dto.roleId.value !in db.roles.rows) ==>
      && (r.Ok? <==> RoleIdOrDefault(dto.roleId) in db.roles.rows)
      && (r.Err? ==> r.error == Internal(ForeignKeyViolation))
    ensures r.Ok? ==>
      var (after, view) := r.value;
      && Consistent(after)
      && view.id !in db.users.rows
      && view.id == db.users.next && after.users.next == db.users.next + 1
      && after.users.rows == db.users.rows[view.id := User(dto.email, HashPassword(h, dto.password), RoleIdOrDefault(dto.roleId))]
      && view == PublicUser(view.id, dto.email, RoleIdOrDefault(dto.roleId))
      && after.roles == db.roles && after.projects == db.projects && after.tasks == db.tasks
  {
    if UserWithEmail(db.users, dto.email).Some? then Err(Conflict("User already exists"))
    else if TruthyId(dto.roleId) && dto.roleId.value !in db.roles.rows then Err(RoleNotFound(dto.roleId.value))
    else
      var u := User(dto.email, dto.password, RoleIdOrDefault(dto.roleId));
      match InsertUser(db, h, u)
      case Err(e) => Err(e)
      case Ok((after, id)) => Ok((after, Stripped(id, u)))
  }

  /** `findAll()` */
  function FindAll(db: Db): (r: map<int, UserSummary>)
    ensures r.Keys == db.users.rows.Keys
    ensures forall id :: id in r ==>
      r[id].id == id && r[id].email == db.users.rows[id].email
      && r[id].role == RoleById(db.roles, db.users.rows[id].roleId)
  {
    map id | id in db.users.rows :: Summary(db, id)
  }

  /** `findOne(id)` answers the same entry `findAll` lists under `id`. */
  function FindOne(db: Db, id: int): (r: Result<UserSummary>)
    ensures r.Ok? <==> id in db.users.rows
    ensures r.Ok? ==> r.value == FindAll(db)[id]
    ensures r.Err? ==> r.error == UserNotFound(id)
  {
    if id in db.users.rows then Ok(Summary(db, id)) else Err(UserNotFound(id))
  }

  /** `Object.assign(user, updateUserDto)`: the fields present in the
      body overwrite, the others stay. */
  function Merge(u: User, patch: UserPatch): (r: User)
    ensures patch.email.None? ==> r.email == u.email
    ensures patch.password.None? ==> r.password == u.password
    ensures patch.roleId.None? ==> r.roleId == u.roleId
    ensures patch.email.Some? ==> r.email == patch.email.value
    ensures patch.password.Some? ==> r.password == patch.password.value
    ensures patch.roleId.Some? ==> r.roleId == patch.roleId.value
  {
    User(patch.email.GetOr(u.email), patch.password.GetOr(u.password), patch.roleId.GetOr(u.roleId))
  }

  /** The email check of `update`: only a truthy email that differs from
      the user's own can conflict. */
  predicate EmailConflict(db: Db, id: int, patch: UserPatch)
    requires id in db.users.rows
  {
    TruthyString(patch.email) && patch.email.value != db.users.rows[id].email
    && EmailTaken(db.users, patch.email.value)
  }

  /** `update(id, updateUserDto)` */
  function Update(db: Db, h: Hasher, id: int, patch: UserPatch): (r: Result<(Db, PublicUser)>)
    requires Consistent(db)
    ensures id !in db.users.rows ==> r == Err(UserNotFound(id))
    ensures r == Err(Conflict("Email already in use")) <==> id in db.users.rows && EmailConflict(db, id, patch)
    ensures id in db.users.rows && !EmailConflict(db, id, patch)
            && TruthyId(patch.roleId) && patch.roleId.value !in db.roles.rows ==>
      r == Err(RoleNotFound(patch.roleId.value))
    ensures id in db.users.rows && !EmailConflict(db, id, patch)
            && !(TruthyId(patch.roleId) && patch.roleId.value !in db.roles.rows) ==>
      && (r.Ok? <==> UserRowAllowed(db, id, Merge(db.users.rows[id], patch)))
      && (r.Err? ==> r.error.Internal?)
    ensures r.Ok? ==>
      var (after, view) := r.value;
      var merged := Merge(db.users.rows[id], patch);
      && Consistent(after)
      && after.users.rows == db.users.rows[id := Hooked(h, merged)] && after.users.next == db.users.next
      && view == PublicUser(id, merged.email, merged.roleId)
      && after.roles == db.roles && after.projects == db.projects && after.tasks == db.tasks
  {
    if id !in db.users.rows then Err(UserNotFound(id))
    else
      var current := db.users.rows[id];
      if TruthyString(patch.email) && patch.email.value != current.email
         && UserWithEmail(db.users, patch.email.value).Some?
      then Err(Conflict("Email already in use"))
      else if TruthyId(patch.roleId) && patch.roleId.value !in db.roles.rows
      then Err(RoleNotFound(patch.roleId.value))
      else
        var merged := Merge(current, patch);
        match ReplaceUser(db, h, id, merged)
        case Err(e) => Err(e)
        case Ok(after) => Ok((after, Stripped(id, merged)))
  }

  /** Re-submitting one's own email, or no email at all, never conflicts,
      and a body without password, email or role changes nothing but
      (at most) re-runs the hash hook on the stored digest. */
  lemma OwnEmailNeverConflicts(db: Db, h: Hasher, id: int, patch: UserPatch)
    requires Consistent(db) && id in db.users.rows
    requires patch.email.None? || patch.email.value == db.users.rows[id].email
    ensures Update(db, h, id, patch) != Err(Conflict("Email already in use"))
  {
  }

  /** Saving an untouched row with a sound hasher leaves its stored digest
      exactly as it was. */
  lemma UpdateKeepsDigest(db: Db, h: Hasher, id: int, patch: UserPatch)
    requires Consistent(db) && Sound(h) && id in db.users.rows
    requires StartsWith(db.users.rows[id].password, HashPrefix)
    requires patch.password.None?
    requires Update(db, h, id, patch).Ok?
    ensures Update(db, h, id, patch).value.0.users.rows[id].password == db.users.rows[id].password
  {
  }

  /** `remove(id)` */
  function Remove(db: Db, id: int): (r: Result<(Db, string)>)
    requires Consistent(db)
    ensures id !in db.users.rows ==> r == Err(UserNotFound(id))
    ensures r.Ok? ==>
      && Consistent(r.value.0)
      && r.value.0.users.rows == db.users.rows - {id} && r.value.0.users.next == db.users.next
      && r.value.0.roles == db.roles && r.value.0.projects == db.projects && r.value.0.tasks == db.tasks
      && r.value.1 == "User #" + IntToString(id) + " removed successfully"
    ensures id in db.users.rows ==>
      (r.Ok? <==> forall p :: p in db.projects.rows ==> db.projects.rows[p].createdById != id)
  {
    if id !in db.users.rows then Err(UserNotFound(id))
    else if exists p :: p in db.projects.rows && db.projects.rows[p].createdById == id
    then Err(Internal(ForeignKeyViolation))
    else Ok((db.(users := Delete(db.users, id)), "User #" + IntToString(id) + " removed successfully"))
  }
}
